=== FILE: README.md ===
# Boid flockers and Schelling segregation, modelled in Dafny

This project models three agent-based simulations from the mesa examples.

- **Boid flockers** (`boid.py`, `boid_flockers/model.py`). Each boid scans
  the neighbours within its vision for the nearest boid. If that boid is
  closer than the minimum separation, the boid turns away from its heading.
  Otherwise the boid turns towards the neighbours' mean direction (align),
  then towards their mean displacement (cohere). Each turn is clamped to its
  own maximum angle. The boid then derives a direction vector from its
  heading and moves one step. On a bounded space it reflects once when the
  step would leave the space. With tracing on, each step leaves a trace
  agent behind; the trace ages and removes itself.
- **Schelling** (`schelling/model.py`). An agent is happy when at least
  `homophily` of its neighbours share its type. Unhappy agents move to a
  random empty cell. The model stops once a step leaves every agent happy.
- **Schelling with perception** (`schelling_perceive/model.py`). An agent
  stays when the share of similar neighbours it perceives reaches
  `homophily`. It moves when it perceives nobody or the share falls short.
  Agents remember whether they stayed, and the model counts every move.

Modules, in dependency order:

| module | file | contents |
|---|---|---|
| `Wrappers` | wrappers.dfy | `Option` |
| `Geometry` | geometry.dfy | 2-D vectors, the trigonometric primitives as a parameter record, their laws |
| `Angles` | angles.dfy | `correctAngle`, `adjustAngle`, `getAngle`, `setHeading` |
| `Traces` | traces.dfy | the trace agent and its ageing |
| `Boids` | boid.dfy | the boid, the nearest-neighbour scan, rule choice, steering, one step |
| `Flock` | flock.dfy | the model's configuration, `make_agents`, trace ids, one model step |
| `Segregation` | segregation.dfy | what the two Schelling models share: grid cells, similar count, placement |
| `Schelling` | schelling.dfy | the basic Schelling model |
| `SchellingPerceive` | schelling_perceive.dfy | the perception variant |

## Inputs instead of library calls

No library code is modelled. The model takes these as parameters instead:

- **Trigonometry and numpy.** `Geometry.Numerics` carries three functions.
  `atanDeg` is `math.atan` in degrees. `tanDeg` is `math.tan` of an angle in
  degrees. `advance(pos, dir, speed)` is `pos + dir / |dir| * speed`.
  Lemmas that need trigonometry assume `Geometry.TrigLaws`: `atanDeg` lies in
  (-90, 90), `tanDeg` undoes it, and `tanDeg` is odd.
- **mesa's continuous space.** `Boids.Space` carries `get_distance`,
  `get_heading` and `out_of_bounds`. The neighbour list a boid sees is an
  argument of its step.
- **mesa's grid.** Each Schelling activation takes the types of the
  neighbours the agent sees as an input. mesa's `SingleGrid.move_to_empty`
  belongs to the mesa library, not to these examples. It is modelled from
  mesa's behaviour: a move to an empty cell chosen at random, and an
  error, instead of a move, when no cell is empty.
  `Segregation.EmptyCell` takes the random index as an input and returns
  `None` for the error. A step that meets the error returns `None`.
  A grid is *settled* (`Segregation.Settled`) when the agents' positions
  lie inside it and no two coincide, as a `SingleGrid` keeps them.
- **Scheduling.** The activation order of a step is an argument. For the
  Schelling models it must be a permutation of the agents
  (`Segregation.IsActivationOrder`). For the flock it must list every
  agent scheduled at the start of the step once (`Flock.IsSnapshotOrder`),
  as `RandomActivation` does. Traces spawned during the step wait for the
  next one, and an id that is gone by its turn is skipped.
- **Random numbers.** Each random stream is a function from draw index to
  value. `draw` is the model's `random.random()` stream and `npDraw` is
  numpy's stream.

## Where the code does less than its names and comments say

The model follows the code in every case below. Each case has a lemma.

- `correctAngle` (boid.py:87-93) corrects by one full turn at most; it does
  not normalise. Angles beyond ±540 stay out of range (`Angles.CorrectAngle`).
- `adjustAngle` (boid.py:101) drops the result of `correctAngle`. The turn
  is therefore computed from the unwrapped difference, and a target more
  than half a turn ahead is approached the long way round
  (`Angles.AdjustTurnsTheLongWay`).
- `step` carries the comment `# normalise heading` (boid.py:201), but the
  call below it (boid.py:202) only derives the direction vector. The
  steered heading is stored as it is and can leave (-180, 180]
  (`Boids.HeadingNotNormalised`).
- `getAngle(0, 0)` returns -90, not 0 (boid.py:107-108).
  `getAngle` negates the arc tangent for x < 0 (boid.py:111-112). The
  resulting heading therefore points along (-x, y), the vector mirrored
  across the vertical axis, not along (x, y) (`Angles.LeftHalfRoundTripMirrors`).
- `setHeading` special-cases 90 and 270 but not -90 (boid.py:223-228).
  The -90 that `getAngle` returns for downward vectors goes down the
  forward branch (`Angles.AxisRoundTrip`).
- `setHeading` tests `self.heading` for the backward case, but uses its
  argument everywhere else (boid.py:230). `Angles.SetHeading` keeps the two
  apart. The only caller passes the stored heading, so they agree there.
- Reflection is one attempt. The step's new position is the reversed
  candidate, with no second bounds check (`Boids.ReflectionIsSingleAttempt`).
  When that candidate is also out of bounds, mesa's `move_agent` then
  raises.
- A boid reflected at heading 90 stores heading -90 with direction (0, -1).
  `setHeading(-90)` would give x = 1 instead, because it does not
  special-case -90. Away from -90 and 90, the stored direction is the one
  the stored heading gives (`Boids.StepKeepsDirection`).
- `Trace` subclasses `Agent`, but boid.py imports only `mesa` (boid.py:9).
  The model treats the base class as `mesa.Agent`.

## Model

| member | source | states |
|---|---|---|
| Angles.CorrectAngle | examples/boid_flockers/boid_flockers/boid.py:87-93 | The result differs from the input by -360, 0 or 360. Angles in [-180, 180] are unchanged. Angles in [-540, 540] land in [-180, 180]. Angles further out stay outside [-180, 180]. |
| Angles.AdjustAngle | examples/boid_flockers/boid_flockers/boid.py:95-103 | For a non-negative maximum, the turn's magnitude is at most the maximum. For a positive maximum, the turn has the sign of the difference. The turn is the whole difference when that fits under the maximum, and exactly the maximum otherwise. There is no turn when already on target. |
| Angles.AdjustAwayNegates | examples/boid_flockers/boid_flockers/boid.py:96-99 | Turning away from an angle is exactly the opposite of turning towards it. |
| Angles.AdjustTurnsTheLongWay | examples/boid_flockers/boid_flockers/boid.py:99-103 | Take a target between half a turn and a full turn ahead. The turn is positive, although the corrected difference is negative. |
| Angles.SetHeading | examples/boid_flockers/boid_flockers/boid.py:221-236 | The x component is -1, 0 or 1. It is 0 exactly at headings 90 and 270, and then y is 1 or -1 respectively. It is -1 exactly when the stored heading is backward (beyond ±90) and no special case applies. Going forward, y is the tangent of the heading; going backward, it is minus the tangent. The vector is never zero, so the step never divides by a zero length. |
| Angles.RightHalfRoundTrip | examples/boid_flockers/boid_flockers/boid.py:105-114 | Take a vector with x > 0 off the axis. Its angle lies in (-90, 90), and `setHeading` maps that angle back to (1, y/x), a positive multiple of the vector. |
| Angles.LeftHalfRoundTripMirrors | examples/boid_flockers/boid_flockers/boid.py:111-112 | Take a vector with x < 0 off the axis. Its angle maps back to a positive multiple of the mirrored vector (-x, y), never of the vector itself. |
| Angles.AxisRoundTrip | examples/boid_flockers/boid_flockers/boid.py:107-110 | Up gives 90 and maps back up. Right gives 0 and maps back right. Left gives 180 and maps back leftward. Down and the zero vector give -90, which takes the forward branch. |
| Angles.GetAngleRange | examples/boid_flockers/boid_flockers/boid.py:105-114 | Every angle lies in [-90, 90] or is exactly 180. |
| Traces.Age | examples/boid_flockers/boid_flockers/boid.py:15-19 | A trace step lowers the age by one and keeps everything else. The trace is removed exactly when the new age is negative. |
| Traces.ActivationsOfAge | examples/boid_flockers/boid_flockers/boid.py:15-19 | A trace with age A ≥ 0 takes A + 1 steps, the removing one included. A trace with a negative age takes one. |
| Traces.KeptUntilLastStep | examples/boid_flockers/boid_flockers/boid.py:16-17 | After k steps the age is A - k, and the next step keeps the trace exactly when k < A. |
| Boids.BoidsAmong | examples/boid_flockers/boid_flockers/boid.py:166-170 | The collected boids are exactly the neighbours that are boids, and there are no more of them than neighbours. |
| Boids.ScanNearestSound | examples/boid_flockers/boid_flockers/boid.py:168-174 | A scan that starts from a correct partial answer finishes with either no boid at all, or the first boid at the least distance among all neighbours. |
| Boids.NearestIsFirstNearest | examples/boid_flockers/boid_flockers/boid.py:164-174 | The scan finds nothing exactly when no neighbour is a boid. Otherwise it finds a boid at the least distance, and every earlier boid is strictly farther. |
| Boids.FirstNearestUnique | examples/boid_flockers/boid_flockers/boid.py:172-174 | The strict comparison makes the nearest neighbour unique: ties go to the first boid encountered. |
| Boids.ChooseRule | examples/boid_flockers/boid_flockers/boid.py:176-199 | Without a boid in sight no rule fires. Otherwise the boid separates from the first nearest boid exactly when that boid is closer than the minimum separation, and aligns and coheres otherwise. |
| Boids.Steer | examples/boid_flockers/boid_flockers/boid.py:116-158 | Without a boid in sight the heading is kept. Separation turns by at most the maximum separate angle. Align then cohere turn by at most the sum of their maximum angles. |
| Boids.Align | examples/boid_flockers/boid_flockers/boid.py:138-158 | The turn is at most the maximum align angle, in the direction of the angle of the neighbours' mean direction vector. The heading reaches that angle when it is within the maximum. Otherwise it turns by exactly the maximum towards it. |
| Boids.Cohere | examples/boid_flockers/boid_flockers/boid.py:124-136 | The same as align, with the maximum cohere angle and the angle of the mean displacement to the neighbours. |
| Boids.AlignThenCohere | examples/boid_flockers/boid_flockers/boid.py:186-199 | On the align-and-cohere path, the aligned heading lies within the maximum align angle of the old heading, between it and the mean direction's angle. It equals that angle when the angle is within reach. Cohere then turns from the aligned heading, not the old one: the final heading minus the aligned one is cohere's clamped turn towards the displacement angle. The final heading equals that angle when it is within the maximum cohere angle of the aligned heading. |
| Boids.SeparationExcludesFlocking | examples/boid_flockers/boid_flockers/boid.py:176-185 | When separation fires, the new heading depends only on the nearest boid's heading. Changing the displacement query or the trigonometry leaves it unchanged. |
| Boids.Step | examples/boid_flockers/boid_flockers/boid.py:160-217 | A step changes only the position, the heading and the direction vector. The direction vector's x is -1, 0 or 1, and when x is 0, y is 1 or -1. |
| Boids.StepMovesOrReflects | examples/boid_flockers/boid_flockers/boid.py:201-217 | Without reflection, the boid keeps the steered heading and moves one step along its direction. With reflection, the direction is reversed and the heading becomes `correctAngle(heading - 180)`, an odd number of half turns from the steered one. The boid then moves one step from the old position along the reversed direction. |
| Boids.ReflectionIsSingleAttempt | examples/boid_flockers/boid_flockers/boid.py:207-217 | Suppose the step reflects and the reversed move also leaves the space. The step's new position is still that reversed candidate, with no second bounds check; mesa's `move_agent` would then raise. |
| Boids.StepKeepsDirection | examples/boid_flockers/boid_flockers/boid.py:201-212 | Assume the tangent repeats every half turn, and the steered heading lies in [-180, 270] other than -90 and 90. The direction vector the step stores, reflected or not, is then the one `setHeading` gives for the heading it stores. |
| Boids.HeadingNotNormalised | examples/boid_flockers/boid_flockers/boid.py:201-202 | A boid heading 180 that separates from a close boid heading 0 ends the step with a heading above 180. |
| Flock.MakeAgentsIds | examples/boid_flockers/boid_flockers/model.py:84-100 | After n rounds of `make_agents`, the schedule, the agents and the space hold exactly the ids 0 to n - 1. |
| Flock.MakeAgentsContents | examples/boid_flockers/boid_flockers/model.py:84-100 | The agent under id i is the i-th boid made, stored in the space at its own position. The configuration and the counters are untouched. |
| Flock.InitConsistent | examples/boid_flockers/boid_flockers/model.py:52-65 | The constructed model is consistent: schedule, agents and space agree, each agent sits under its own id at its own position, and boid ids lie below the trace counter. |
| Flock.InitMakesBoids | examples/boid_flockers/boid_flockers/model.py:52-65 | The model schedules ids 0 to population - 1 (none when the population is negative), each holding the corresponding boid. It is running, and its trace counter starts at population + 100. |
| Flock.NewBoidShares | examples/boid_flockers/boid_flockers/model.py:88-98 | Each boid carries its index as id and the model's speed, vision, separation and the three factors. It starts with heading 0 and direction (0, 0). |
| Flock.InitPositionsInBounds | examples/boid_flockers/boid_flockers/model.py:84-87 | With draws in [0, 1) and a positive size, every boid starts inside [0, width) x [0, height). |
| Flock.NewBoidInBounds | examples/boid_flockers/boid_flockers/model.py:85-87 | One boid's two coordinate draws in [0, 1) give a position inside the space. |
| Flock.Stretch | examples/boid_flockers/boid_flockers/model.py:85-86 | A draw in [0, 1) times a positive size lies in [0, size). |
| Flock.SpawnTrace | examples/boid_flockers/boid_flockers/boid.py:242-245 | The counter rises by one, and the new trace gets that id, the initial age and the given position. Every other agent and position is kept. In a consistent model the id is above every id in use, the trace joins the schedule, and consistency holds. |
| Flock.BoidTick | examples/boid_flockers/boid_flockers/boid.py:160-219 | The trace counter rises exactly when tracing is on. Consistency, the configuration and the running flag are kept. The boid becomes its stepped self at its new position, every other agent is kept, and with tracing on a trace appears at the new position under the new counter, the only id added. |
| Flock.Commit | examples/boid_flockers/boid_flockers/boid.py:217-219 | The trace counter rises exactly when tracing is on. Consistency, the configuration and the running flag are kept. The boid's entry and position become its new state, every other agent is kept, and with tracing on a trace appears at the new position under the new counter, the only id added. |
| Flock.TraceTick | examples/boid_flockers/boid_flockers/boid.py:15-19 | A trace is either aged in place, or removed from schedule, agents and space together, as its age decides. Consistency is preserved. |
| Flock.Activate | examples/boid_flockers/boid_flockers/model.py:102-103 | One activation skips an id that is gone and changes nothing. In a consistent model, a boid becomes its own step seeing the given neighbours. A trace is aged once, or is removed once its age falls below zero. The trace counter rises exactly for a boid with tracing on, and then the new counter holds a fresh trace, in the schedule, with the initial age, at the boid's new position. No other id is added. Consistency, the configuration and the running flag are kept. Every other agent is kept, and an id that is free and was already handed out stays free. |
| Flock.EachActivated | examples/boid_flockers/boid_flockers/model.py:102-103 | Over distinct ids of a consistent model, each listed agent ends as its own activation left it. A boid is its step seeing its view; a trace is aged once or removed. Nothing activated later touches it. |
| Flock.Untouched | examples/boid_flockers/boid_flockers/model.py:102-103 | Activations over other ids leave an agent as it was. An id that was free and already handed out stays free, so a removed trace's id never comes back. |
| Flock.Activations | examples/boid_flockers/boid_flockers/model.py:102-103 | A run of activations keeps consistency, the configuration and the running flag. The trace counter never decreases, and boids stay boids. |
| Flock.OneTracePerBoid | examples/boid_flockers/boid_flockers/boid.py:217-219 | Over distinct ids of a consistent model, the activations raise the trace counter by one for each listed boid when tracing is on, and leave it otherwise. |
| Flock.SpawnedTraces | examples/boid_flockers/boid_flockers/boid.py:217-219 | Over distinct ids of a consistent model with tracing on, the i-th listed boid leaves a trace under id counter + 1 + i, with the initial age, at the position the boid ends on. The trace is still there, unaged, when the activations end. |
| Flock.FirstTraceKept | examples/boid_flockers/boid_flockers/boid.py:217-219 | With tracing on, the trace the first listed boid leaves under the next id, at its new position, survives the activations after it, and so does the boid. |
| Flock.ListedBoidIdsDistinct | examples/boid_flockers/boid_flockers/model.py:102-103 | Over distinct ids, the boids an order lists are boids of the model, named in the order, each once. |
| Flock.ListedBoids | examples/boid_flockers/boid_flockers/model.py:102-103 | Over distinct ids, the number of listed boids is the number of distinct boid ids the list holds. |
| Flock.SnapshotListsAll | examples/boid_flockers/boid_flockers/model.py:102-103 | A snapshot order of a model whose agents are its schedule lists only agents, with no repeats, and lists every boid. |
| Flock.SnapshotCount | examples/boid_flockers/boid_flockers/model.py:102-103 | Over a snapshot order of a consistent model, the trace counter grows by the number of boids when tracing is on. |
| Flock.SnapshotTraces | examples/boid_flockers/boid_flockers/model.py:102-103 | Over a snapshot order of a consistent model with tracing on, the order lists every boid once, and the new ids hold one fresh trace per boid, at that boid's new position, in the order's order. |
| Flock.Tick | examples/boid_flockers/boid_flockers/model.py:102-103 | Each agent scheduled at the start is activated once. A model step then preserves consistency and the configuration, and boids stay boids. With tracing on, the trace counter grows by exactly the number of boids, and the new ids hold one fresh trace for each boid, with the initial age, at that boid's new position. Without tracing the counter stays. Every agent scheduled at the start ends as its activation left it: each boid is its step seeing its view, and each trace is aged once or removed. The running flag is kept. |
| Flock.TraceIdsAboveBoidIds | examples/boid_flockers/boid_flockers/model.py:65 | In a consistent model every trace id exceeds every boid id by more than 100, so the two never collide. |
| Segregation.Cells | examples/schelling/model.py:74 | The grid's cells in increasing x, then increasing y: width x height of them, each exactly once, and all inside the grid. |
| Segregation.Similar | examples/schelling/model.py:23 | The similar count is at most the number of neighbours. |
| Segregation.SimilarIsMultiplicity | examples/schelling/model.py:23 | The similar count equals how often the agent's type occurs among the neighbour types. |
| Segregation.Populate | examples/schelling/model.py:74-78 | Placement puts at most one resident per cell visited, each on a visited cell and of one of the two types. It uses one draw per cell plus one per resident. |
| Segregation.PopulateSplit | examples/schelling/model.py:74-78 | Placing over the first k cells and then over the rest, from where the draws stopped, is the same as placing over all of them. |
| Segregation.CellRule | examples/schelling/model.py:74-78 | Over distinct cells, a cell is occupied exactly when the draw reached at it is below the density. Its occupant is of the minority type exactly when the next draw is below the minority share. |
| Segregation.PopulateOnePerCell | examples/schelling/model.py:74-78 | Over distinct cells, no two residents share a cell. |
| Segregation.PopulateSettled | examples/schelling/model.py:74-78 | The constructors' placement leaves the grid settled: positions inside the grid, no two the same. |
| Segregation.EmptyCell | examples/schelling/model.py:26-27 | `move_to_empty` fails exactly when every cell of the grid is taken. Otherwise it picks a cell inside the grid that nobody takes. |
| Segregation.RoomLeft | examples/schelling/model.py:26-27 | Pigeonhole: with fewer distinct positions than cells, `move_to_empty` always finds a cell. |
| Segregation.MoveKeepsSettled | examples/schelling/model.py:26-27 | Moving one agent to an in-grid cell that nobody takes keeps the grid settled. |
| Segregation.RelocateKeepsSettled | examples/schelling/model.py:26-27 | The same, for a resident moved to such a cell. |
| Schelling.InitPlacement | examples/schelling/model.py:59-78 | The constructor counts no happy agents. It places at most width x height agents, no two on one cell, all inside the grid, each of type 1 or 0. The grid it leaves is settled. |
| Schelling.Activate | examples/schelling/model.py:19-29 | The activation fails exactly when the agent is unhappy and no cell is empty. The happy count rises exactly when the agent is happy, and then nobody moves. An unhappy agent moves to a grid cell nobody occupied. Every other agent and every type is kept, and a settled grid stays settled. |
| Schelling.HappyCountFull | examples/schelling/model.py:82-91 | Of n activations at most n are happy, and n are happy exactly when every activated agent was. |
| Schelling.ActivateNext | examples/schelling/model.py:86-87 | A successful activation of the next agent in the shuffled order extends the step's prefix facts by one agent. Settings and types are kept, and the happy count counts the happy agents activated so far. A settled grid stays settled. Agents not yet activated are untouched. Each activated agent stayed if happy, and moved to another grid cell if not. |
| Schelling.Step | examples/schelling/model.py:82-91 | A step fails only when some agent is unhappy, and never on a settled grid with fewer agents than cells. After a successful step, the happy count is the number of agents that found themselves happy, between 0 and the population. The model stops exactly when all were happy. Each agent stays if happy and moves to another grid cell if not. Types are kept, and a settled grid stays settled. With homophily at most 0, nobody moves and the model stops. Only the residents, the happy count and the running flag change: size, homophily and radius are kept. |
| SchellingPerceive.InitFacts | examples/schelling_perceive/model.py:86-114 | The Moore neighbourhood is used exactly when it is asked for by name. Both counters start at zero and the model is running. No two agents share a cell, all are inside the grid (so the grid is settled), each is of type 1 or 2, and each starts unhappy. |
| SchellingPerceive.Moves | examples/schelling_perceive/model.py:30-43 | An agent that perceives nobody moves. Otherwise it moves exactly when the share of similar neighbours is below homophily. With homophily above 1 every agent moves. |
| SchellingPerceive.Activate | examples/schelling_perceive/model.py:42-49 | The activation fails exactly when the agent would move and no cell is empty. A mover goes to a grid cell nobody occupied, adds one to the moves, and marks itself unhappy. A stayer keeps its cell, adds one to the happy count, and marks itself happy. Nothing else changes, and a settled grid stays settled. |
| SchellingPerceive.ActivateNext | examples/schelling_perceive/model.py:121-122 | A successful activation of the next agent in the shuffled order extends the step's prefix facts by one agent. The counters add up, a settled grid stays settled, agents not yet activated are untouched, and each activated agent ends as its choice says. |
| SchellingPerceive.Residents | examples/schelling_perceive/model.py:103-112 | An agent's type and cell, read as a resident of the shared placement rule, one per agent in order. |
| SchellingPerceive.SettleRoundTrip | examples/schelling_perceive/model.py:103-112 | Making agents from placed residents and reading them back gives the residents again. |
| SchellingPerceive.RelocateKeepsSettled | examples/schelling_perceive/model.py:43-46 | Moving an agent to an in-grid cell that nobody takes keeps the grid settled. |
| SchellingPerceive.Step | examples/schelling_perceive/model.py:117-127 | A step fails only when some agent would move, and never on a settled grid with fewer agents than cells. After a successful step, the moves added plus the happy count equal the population. The move count only grows. The model stops once all are happy and never restarts. Each agent's flag records whether it stayed, and a mover ends on another grid cell. A settled grid stays settled, and types are kept. Only the agents, the two counters and the running flag change: every setting is kept. |

## Left out

- mesa's `ContinuousSpace` and `SingleGrid` are not modelled beyond
  `move_to_empty` and the distance, heading and bounds queries of the
  `Space` record. The radius query is an input: the neighbours a boid sees
  and the neighbour types a Schelling agent sees are given, not derived
  from the space or the grid.
- Flock.Commit: stores the step's new position as given. mesa's
  `move_agent` first wraps a position on a torus, so the boid, and the
  trace placed at its position (boid.py:242-245), sit at the wrapped point
  there. On a bounded space it raises for a position out of bounds. Neither
  the wrap nor the exception is modelled.
- Segregation.EmptyCell: the random choice is modelled as an input index
  reduced modulo the number of empty cells. This keeps the choice among the
  empty cells but not its distribution. When many cells are empty, mesa
  draws random cells until it hits an empty one instead of choosing from
  the list; the model does not follow that.
- The shuffling of activation order, and the seeding of the random
  generators, are left out. Order and draws are inputs.
- Floating point is modelled as exact reals. `math.atan`, `math.tan`,
  `math.sqrt` and the numpy vector arithmetic of the move are the
  parameters of `Geometry.Numerics`. The `Decimal("Infinity")` start of the
  nearest-neighbour scan is modelled by starting with no candidate.
- Logging, the `DataCollector`, the server and the visualisation are left
  out, because they do not affect the simulation state.
- The perception model's `run(n)` is left out, because it only repeats
  `step`.
- The boid's `velocity` is drawn and stored but never read by the step. The
  model carries it unchanged.
- Boids.BoidsAmong: the source collects boids in a Python set. The model
  keeps a sequence in neighbour order, because mesa returns each neighbour
  once. The mean vectors are sums and do not depend on order.
- The neighbour radius, the Moore flag and the perception radius are stored
  but not used: they only configure mesa's neighbour query, which is an
  input.
- Flock.Tick: the consistency it preserves does not include positions
  staying inside the space, because `move_agent`'s wrap and bounds handling
  are not modelled.

=== FILE: angles.dfy ===
/**
 * The angle arithmetic of a boid (`Boid.correctAngle`, `adjustAngle`,
 * `getAngle` and `setHeading` in boid.py). Angles are in degrees.
 */
module Angles {
  import opened Geometry

  function Abs(x: real): real {
    if x < 0.0 then -x else x
  }

  /** `numpy.sign`: -1, 0 or 1. */
  function Sign(x: real): real {
    if x > 0.0 then 1.0 else if x < 0.0 then -1.0 else 0.0
  }

  function Min(a: real, b: real): real {
    if a <= b then a else b
  }

  /**
   * `correctAngle`: one correction by a full turn, not a loop. Angles within
   * one extra turn land in [-180, 180]; anything further out stays out.
   */
  function CorrectAngle(angle: real): (r: real)
    ensures r - angle == -360.0 || r - angle == 0.0 || r - angle == 360.0
    ensures -180.0 <= angle <= 180.0 ==> r == angle
    ensures -540.0 <= angle <= 540.0 ==> -180.0 <= r <= 180.0
    ensures angle > 540.0 ==> r > 180.0
    ensures angle < -540.0 ==> r < -180.0
  {
    if angle < -180.0 then angle + 360.0
    else if angle > 180.0 then angle - 360.0
    else angle
  }

  /**
   * The raw turn `adjustAngle` works from: towards `angle` or, with `away`,
   * away from it. The source passes it to `correctAngle` and drops the
   * result, so the difference is never wrapped.
   */
  function Difference(heading: real, angle: real, away: bool): real {
    if away then heading - angle else angle - heading
  }

  /**
   * `adjustAngle`: the raw difference with its magnitude clamped to
   * `maxAngle` and its sign kept, `min(abs(d), maxAngle) * sign(d)` written
   * out by the sign of d.
   */
  function AdjustAngle(heading: real, angle: real, maxAngle: real, away: bool): (r: real)
    ensures 0.0 <= maxAngle ==> Abs(r) <= maxAngle
    ensures 0.0 < maxAngle ==> Sign(r) == Sign(Difference(heading, angle, away))
    ensures Abs(Difference(heading, angle, away)) <= maxAngle ==> r == Difference(heading, angle, away)
    ensures 0.0 <= maxAngle <= Abs(Difference(heading, angle, away)) ==> Abs(r) == maxAngle
    ensures angle == heading ==> r == 0.0
  {
    var d := Difference(heading, angle, away);
    if d > 0.0 then Min(d, maxAngle)
    else if d < 0.0 then -Min(-d, maxAngle)
    else 0.0
  }

  /** Turning away from an angle is exactly the opposite of turning towards it. */
  lemma AdjustAwayNegates(heading: real, angle: real, maxAngle: real)
    ensures AdjustAngle(heading, angle, maxAngle, true) == -AdjustAngle(heading, angle, maxAngle, false)
  {
  }

  /**
   * Because the difference is not wrapped, a target more than half a turn
   * ahead is approached the long way round: the turn is positive although
   * the corrected difference is negative.
   */
  lemma AdjustTurnsTheLongWay(heading: real, angle: real, maxAngle: real)
    requires 0.0 < maxAngle
    requires 180.0 < angle - heading < 360.0
    ensures AdjustAngle(heading, angle, maxAngle, false) > 0.0
    ensures CorrectAngle(angle - heading) < 0.0
  {
  }

  /**
   * `getAngle`: the heading, in degrees, of the vector (x, y), with the
   * axes special-cased and `atan` used elsewhere.
   */
  function GetAngle(x: real, y: real, nm: Numerics): real {
    if x == 0.0 then (if y > 0.0 then 90.0 else -90.0)
    else if y == 0.0 then (if x > 0.0 then 0.0 else 180.0)
    else if x < 0.0 then -nm.atanDeg(y / x)
    else nm.atanDeg(y / x)
  }

  /**
   * `setHeading`: the direction vector for `heading`. The backward test
   * reads the boid's stored heading (`current`), the rest reads the
   * argument. The x component is always -1, 0 or 1, the y component is the
   * tangent of the heading times it off the two vertical headings, and the
   * vector is never zero, so the length the step divides by is never zero.
   */
  function SetHeading(heading: real, current: real, nm: Numerics): (v: Vec)
    ensures v.x == -1.0 || v.x == 0.0 || v.x == 1.0
    ensures v.x == 0.0 <==> heading == 90.0 || heading == 270.0
    ensures v.x == 0.0 ==> v.y == (if heading == 90.0 then 1.0 else -1.0)
    ensures v.x == -1.0 <==> v.x != 0.0 && (current < -90.0 || current > 90.0)
    ensures v.x == 1.0 ==> v.y == nm.tanDeg(heading)
    ensures v.x == -1.0 ==> v.y == -nm.tanDeg(heading)
    ensures v != Vec(0.0, 0.0)
  {
    if heading == 90.0 then Vec(0.0, 1.0)
    else if heading == 270.0 then Vec(0.0, -1.0)
    else if current < -90.0 || current > 90.0 then Vec(-1.0, -nm.tanDeg(heading))
    else Vec(1.0, nm.tanDeg(heading))
  }

  /**
   * For a vector in the right half-plane off the axes, the heading
   * `getAngle` returns turns back, through `setHeading`, into a vector
   * pointing the same way.
   */
  lemma RightHalfRoundTrip(x: real, y: real, nm: Numerics)
    requires TrigLaws(nm)
    requires x > 0.0 && y != 0.0
    ensures var h := GetAngle(x, y, nm);
      -90.0 < h < 90.0 && SetHeading(h, h, nm) == Vec(1.0, y / x)
    ensures var h := GetAngle(x, y, nm); SameDirection(SetHeading(h, h, nm), Vec(x, y))
  {
    var h := GetAngle(x, y, nm);
    assert nm.tanDeg(nm.atanDeg(y / x)) == y / x;
    var k := 1.0 / x;
    assert Scale(Vec(x, y), k) == Vec(1.0, y / x);
  }

  /**
   * For a vector in the left half-plane off the axes, `getAngle` negates
   * the arc tangent instead of adding half a turn, so the round trip
   * through `setHeading` points along the mirror image (-x, y): the
   * vector's reflection in the vertical axis.
   */
  lemma LeftHalfRoundTripMirrors(x: real, y: real, nm: Numerics)
    requires TrigLaws(nm)
    requires x < 0.0 && y != 0.0
    ensures var h := GetAngle(x, y, nm);
      -90.0 < h < 90.0 && SetHeading(h, h, nm) == Vec(1.0, -(y / x))
    ensures var h := GetAngle(x, y, nm); SameDirection(SetHeading(h, h, nm), Vec(-x, y))
    ensures var h := GetAngle(x, y, nm); !SameDirection(SetHeading(h, h, nm), Vec(x, y))
  {
    var h := GetAngle(x, y, nm);
    assert nm.tanDeg(-nm.atanDeg(y / x)) == -nm.tanDeg(nm.atanDeg(y / x));
    assert nm.tanDeg(nm.atanDeg(y / x)) == y / x;
    var u := SetHeading(h, h, nm);
    var k := -1.0 / x;
    assert Scale(Vec(-x, y), k) == Vec(1.0, -(y / x));
  }

  /**
   * On the axes: up maps to up and right to right, while the zero vector
   * and every downward vertical get -90, which `setHeading` sends down the
   * forward branch rather than to its special case for 270.
   */
  lemma AxisRoundTrip(x: real, y: real, nm: Numerics)
    requires TrigLaws(nm)
    ensures x == 0.0 && y > 0.0 ==> GetAngle(x, y, nm) == 90.0 && SetHeading(90.0, 90.0, nm) == Vec(0.0, 1.0)
    ensures x == 0.0 && y <= 0.0 ==> GetAngle(x, y, nm) == -90.0 && SetHeading(-90.0, -90.0, nm).x == 1.0
    ensures x > 0.0 && y == 0.0 ==> GetAngle(x, y, nm) == 0.0 && SetHeading(0.0, 0.0, nm) == Vec(1.0, 0.0)
    ensures x < 0.0 && y == 0.0 ==> GetAngle(x, y, nm) == 180.0 && SetHeading(180.0, 180.0, nm).x == -1.0
  {
    assert nm.tanDeg(-0.0) == -nm.tanDeg(0.0);
  }

  /** Under the trigonometric laws `getAngle` lies in [-90, 90] or is exactly 180. */
  lemma GetAngleRange(x: real, y: real, nm: Numerics)
    requires TrigLaws(nm)
    ensures var h := GetAngle(x, y, nm); -90.0 <= h <= 90.0 || h == 180.0
  {
    if x != 0.0 && y != 0.0 {
      assert -90.0 < nm.atanDeg(y / x) < 90.0;
    }
  }

}

=== FILE: boid.dfy ===
/**
 * One step of a boid (`Boid.step` in boid.py): scan the neighbours for
 * boids and the nearest of them, choose between separating and
 * align-then-cohere, turn the direction vector, and move once, reflecting
 * once at a bounded edge.
 *
 * mesa's continuous space enters as the neighbour list it returned and a
 * `Space` record of the three queries the step makes of it.
 */
module Boids {
  import opened Wrappers
  import opened Geometry
  import opened Angles
  import opened Traces

  datatype Boid = Boid(
    id: int,
    pos: Vec,
    speed: real,
    velocity: Vec,
    vision: real,
    separation: real,
    cohereFactor: real,
    separateFactor: real,
    matchFactor: real,
    heading: real,
    headingx: real,
    headingy: real
  )

  /** An agent of the space: a boid, or a trace one left behind. */
  datatype Agent = BoidAgent(boid: Boid) | TraceAgent(trace: Trace)
  {
    function Id(): int {
      match this
      case BoidAgent(b) => b.id
      case TraceAgent(t) => t.id
    }

    function Pos(): Vec {
      match this
      case BoidAgent(b) => b.pos
      case TraceAgent(t) => t.pos
    }
  }

  /** The model attributes a boid's step reads. */
  datatype Settings = Settings(
    toroidal: bool,
    minimumSeparation: real,
    maxSeparateAngle: real,
    maxCohereAngle: real,
    maxAlignAngle: real
  )

  /** The queries the step makes of mesa's `ContinuousSpace`. */
  datatype Space = Space(
    /** `get_distance(p, q)` */
    distance: (Vec, Vec) -> real,
    /** `get_heading(p, q)`: the displacement from p towards q */
    headingTo: (Vec, Vec) -> Vec,
    /** `out_of_bounds(p)` */
    outOfBounds: Vec -> bool
  )

  /** The `boids` the step collects: the neighbours that are boids, in order. */
  function BoidsAmong(ns: seq<Agent>): (bs: seq<Boid>)
    ensures |bs| <= |ns|
    ensures forall b :: b in bs <==> BoidAgent(b) in ns
  {
    if ns == [] then []
    else
      var rest := BoidsAmong(ns[1..]);
      assert forall a :: a in ns <==> a == ns[0] || a in ns[1..];
      if ns[0].BoidAgent? then [ns[0].boid] + rest else rest
  }

  function Dist(pos: Vec, a: Agent, sp: Space): real {
    sp.distance(pos, a.Pos())
  }

  /**
   * `ns[k]` is the nearest boid among `ns[..i]` and the first one at that
   * distance.
   */
  ghost predicate FirstNearestIn(pos: Vec, ns: seq<Agent>, sp: Space, i: nat, k: nat)
    requires i <= |ns|
  {
    && k < i
    && ns[k].BoidAgent?
    && (forall j :: 0 <= j < i && ns[j].BoidAgent? ==> Dist(pos, ns[k], sp) <= Dist(pos, ns[j], sp))
    && (forall j :: 0 <= j < k && ns[j].BoidAgent? ==> Dist(pos, ns[k], sp) < Dist(pos, ns[j], sp))
  }

  ghost predicate IsFirstNearest(pos: Vec, ns: seq<Agent>, sp: Space, k: nat) {
    FirstNearestIn(pos, ns, sp, |ns|, k)
  }

  ghost predicate NoBoidIn(ns: seq<Agent>, i: nat)
    requires i <= |ns|
  {
    forall j :: 0 <= j < i ==> !ns[j].BoidAgent?
  }

  /**
   * The loop of `Boid.step` from index `i` on: a boid replaces the current
   * nearest only at a strictly smaller distance. The source starts from
   * distance `Infinity`, which every real distance is below, so the first
   * boid is always taken.
   */
  function ScanNearest(pos: Vec, ns: seq<Agent>, sp: Space, i: nat, best: Option<nat>): Option<nat>
    requires i <= |ns|
    requires best.Some? ==> best.value < |ns|
    decreases |ns| - i
  {
    if i == |ns| then best
    else if ns[i].BoidAgent? && (best.None? || Dist(pos, ns[i], sp) < Dist(pos, ns[best.value], sp)) then
      ScanNearest(pos, ns, sp, i + 1, Some(i))
    else
      ScanNearest(pos, ns, sp, i + 1, best)
  }

  function Nearest(pos: Vec, ns: seq<Agent>, sp: Space): Option<nat> {
    ScanNearest(pos, ns, sp, 0, None)
  }

  lemma {:induction false} ScanNearestSound(pos: Vec, ns: seq<Agent>, sp: Space, i: nat, best: Option<nat>)
    requires i <= |ns|
    requires best.None? ==> NoBoidIn(ns, i)
    requires best.Some? ==> FirstNearestIn(pos, ns, sp, i, best.value)
    ensures var r := ScanNearest(pos, ns, sp, i, best);
      && (r.None? ==> NoBoidIn(ns, |ns|))
      && (r.Some? ==> IsFirstNearest(pos, ns, sp, r.value))
    decreases |ns| - i
  {
    if i < |ns| {
      if ns[i].BoidAgent? && (best.None? || Dist(pos, ns[i], sp) < Dist(pos, ns[best.value], sp)) {
        assert FirstNearestIn(pos, ns, sp, i + 1, i);
        ScanNearestSound(pos, ns, sp, i + 1, Some(i));
      } else {
        assert best.None? ==> NoBoidIn(ns, i + 1);
        assert best.Some? ==> FirstNearestIn(pos, ns, sp, i + 1, best.value);
        ScanNearestSound(pos, ns, sp, i + 1, best);
      }
    }
  }

  /**
   * The scan finds a nearest boid exactly when there is a boid among the
   * neighbours, and it is the first one at the least distance.
   */
  lemma NearestIsFirstNearest(pos: Vec, ns: seq<Agent>, sp: Space)
    ensures Nearest(pos, ns, sp).None? <==> NoBoidIn(ns, |ns|)
    ensures Nearest(pos, ns, sp).Some? ==> IsFirstNearest(pos, ns, sp, Nearest(pos, ns, sp).value)
  {
    ScanNearestSound(pos, ns, sp, 0, None);
  }

  /** There is at most one first nearest boid. */
  lemma FirstNearestUnique(pos: Vec, ns: seq<Agent>, sp: Space, k1: nat, k2: nat)
    requires IsFirstNearest(pos, ns, sp, k1) && IsFirstNearest(pos, ns, sp, k2)
    ensures k1 == k2
  {
  }

  function SumHeadings(bs: seq<Boid>): Vec {
    if bs == [] then Vec(0.0, 0.0)
    else Add(Vec(bs[0].headingx, bs[0].headingy), SumHeadings(bs[1..]))
  }

  function SumOffsets(pos: Vec, bs: seq<Boid>, sp: Space): Vec {
    if bs == [] then Vec(0.0, 0.0)
    else Add(sp.headingTo(pos, bs[0].pos), SumOffsets(pos, bs[1..], sp))
  }

  /** The average of `n` vectors with the given sum; zero when there are none. */
  function Mean(sum: Vec, n: nat): Vec {
    if n == 0 then Vec(0.0, 0.0) else Vec(sum.x / n as real, sum.y / n as real)
  }

  /** `separate`: turn away from the nearest boid's heading. */
  function Separate(heading: real, nearest: Boid, s: Settings): real {
    heading + AdjustAngle(heading, nearest.heading, s.maxSeparateAngle, true)
  }

  /** The angle of the boids' mean direction vector, which `align` turns towards. */
  function AlignTarget(bs: seq<Boid>, nm: Numerics): real {
    var m := Mean(SumHeadings(bs), |bs|);
    GetAngle(m.x, m.y, nm)
  }

  /** The angle of the mean displacement to the boids, which `cohere` turns towards. */
  function CohereTarget(pos: Vec, bs: seq<Boid>, sp: Space, nm: Numerics): real {
    var m := Mean(SumOffsets(pos, bs, sp), |bs|);
    GetAngle(m.x, m.y, nm)
  }

  /**
   * `align`: turn towards the angle of the boids' mean direction vector,
   * reaching it when it is within the maximum align angle and turning by
   * exactly that angle towards it otherwise.
   */
  function Align(heading: real, bs: seq<Boid>, s: Settings, nm: Numerics): (h: real)
    ensures 0.0 <= s.maxAlignAngle ==> Abs(h - heading) <= s.maxAlignAngle
    ensures 0.0 < s.maxAlignAngle ==> Sign(h - heading) == Sign(AlignTarget(bs, nm) - heading)
    ensures Abs(AlignTarget(bs, nm) - heading) <= s.maxAlignAngle ==> h == AlignTarget(bs, nm)
    ensures 0.0 <= s.maxAlignAngle < AlignTarget(bs, nm) - heading ==> h == heading + s.maxAlignAngle
    ensures 0.0 <= s.maxAlignAngle < heading - AlignTarget(bs, nm) ==> h == heading - s.maxAlignAngle
  {
    heading + AdjustAngle(heading, AlignTarget(bs, nm), s.maxAlignAngle, false)
  }

  /**
   * `cohere`: turn towards the angle of the mean displacement to the
   * boids, reaching it when it is within the maximum cohere angle and
   * turning by exactly that angle towards it otherwise.
   */
  function Cohere(heading: real, pos: Vec, bs: seq<Boid>, s: Settings, sp: Space, nm: Numerics): (h: real)
    ensures 0.0 <= s.maxCohereAngle ==> Abs(h - heading) <= s.maxCohereAngle
    ensures 0.0 < s.maxCohereAngle ==> Sign(h - heading) == Sign(CohereTarget(pos, bs, sp, nm) - heading)
    ensures Abs(CohereTarget(pos, bs, sp, nm) - heading) <= s.maxCohereAngle ==> h == CohereTarget(pos, bs, sp, nm)
    ensures 0.0 <= s.maxCohereAngle < CohereTarget(pos, bs, sp, nm) - heading ==> h == heading + s.maxCohereAngle
    ensures 0.0 <= s.maxCohereAngle < heading - CohereTarget(pos, bs, sp, nm) ==> h == heading - s.maxCohereAngle
  {
    heading + AdjustAngle(heading, CohereTarget(pos, bs, sp, nm), s.maxCohereAngle, false)
  }

  /** Which steering rule a step applies. */
  datatype Rule = Keep | SeparateFrom(nearest: nat) | AlignCohere

  /**
   * No boid in sight: keep the heading. Otherwise separate from the first
   * nearest boid when it is closer than the minimum separation, else align
   * and cohere. Exactly one of the three happens.
   */
  function ChooseRule(b: Boid, ns: seq<Agent>, s: Settings, sp: Space): (r: Rule)
    ensures r.Keep? <==> NoBoidIn(ns, |ns|)
    ensures r.SeparateFrom? ==> IsFirstNearest(b.pos, ns, sp, r.nearest)
    ensures forall k: nat {:trigger IsFirstNearest(b.pos, ns, sp, k)} :: IsFirstNearest(b.pos, ns, sp, k) ==>
      r == (if Dist(b.pos, ns[k], sp) < s.minimumSeparation then SeparateFrom(k) else AlignCohere)
  {
    NearestIsFirstNearest(b.pos, ns, sp);
    forall k1: nat, k2: nat | IsFirstNearest(b.pos, ns, sp, k1) && IsFirstNearest(b.pos, ns, sp, k2)
      ensures k1 == k2
    {
      FirstNearestUnique(b.pos, ns, sp, k1, k2);
    }
    match Nearest(b.pos, ns, sp)
    case None => Keep
    case Some(k) =>
      if Dist(b.pos, ns[k], sp) < s.minimumSeparation then SeparateFrom(k) else AlignCohere
  }

  /**
   * The heading after the chosen rule, before `setHeading`. Align and
   * cohere run in that order, cohere turning from the heading align left.
   * Each rule turns by at most its own maximum angle.
   */
  function Steer(b: Boid, ns: seq<Agent>, s: Settings, sp: Space, nm: Numerics): (h: real)
    ensures ChooseRule(b, ns, s, sp).Keep? ==> h == b.heading
    ensures ChooseRule(b, ns, s, sp).SeparateFrom? && 0.0 <= s.maxSeparateAngle ==>
      Abs(h - b.heading) <= s.maxSeparateAngle
    ensures ChooseRule(b, ns, s, sp).AlignCohere? && 0.0 <= s.maxAlignAngle && 0.0 <= s.maxCohereAngle ==>
      Abs(h - b.heading) <= s.maxAlignAngle + s.maxCohereAngle
  {
    match ChooseRule(b, ns, s, sp)
    case Keep => b.heading
    case SeparateFrom(k) => Separate(b.heading, ns[k].boid, s)
    case AlignCohere =>
      var bs := BoidsAmong(ns);
      var aligned := Align(b.heading, bs, s, nm);
      var cohered := Cohere(aligned, b.pos, bs, s, sp, nm);
      assert 0.0 <= s.maxAlignAngle ==> Abs(aligned - b.heading) <= s.maxAlignAngle;
      assert 0.0 <= s.maxCohereAngle ==> Abs(cohered - aligned) <= s.maxCohereAngle;
      cohered
  }

  /**
   * On the align-and-cohere path the two turns run in sequence: align turns
   * from the boid's heading towards the mean direction, ending between the
   * two, then cohere turns
   * from the heading align left, not from the original one, towards the
   * mean displacement. When the displacement's angle is within the
   * maximum cohere angle of the aligned heading, the boid ends exactly on
   * it, whatever the original heading was.
   */
  lemma AlignThenCohere(b: Boid, ns: seq<Agent>, s: Settings, sp: Space, nm: Numerics)
    requires ChooseRule(b, ns, s, sp).AlignCohere?
    ensures AlignsThenCoheres(b.heading, Steer(b, ns, s, sp, nm), b.pos, BoidsAmong(ns), s, sp, nm)
  {
    SteerAlignsThenCoheres(b, ns, s, sp, nm);
    AlignedThenCohered(b.heading, b.pos, BoidsAmong(ns), s, sp, nm);
  }

  /**
   * `h` is what aligning from `heading` and then cohering gives: the
   * aligned heading `a` lies within the maximum align angle of `heading`,
   * between it and the mean direction's angle, and equals that angle when
   * it is within reach; `h` turns from `a`, not from `heading`, by cohere's
   * clamped turn towards the mean displacement's angle, and equals that
   * angle when it is within reach of `a`.
   */
  ghost predicate AlignsThenCoheres(heading: real, h: real, pos: Vec, bs: seq<Boid>, s: Settings, sp: Space, nm: Numerics) {
    var a := Align(heading, bs, s, nm);
    var ta := AlignTarget(bs, nm);
    var tc := CohereTarget(pos, bs, sp, nm);
    && (0.0 <= s.maxAlignAngle ==> Abs(a - heading) <= s.maxAlignAngle)
    && (0.0 <= s.maxAlignAngle && ta <= heading ==> ta <= a <= heading)
    && (0.0 <= s.maxAlignAngle && heading <= ta ==> heading <= a <= ta)
    && (Abs(ta - heading) <= s.maxAlignAngle ==> a == ta)
    && h - a == AdjustAngle(a, tc, s.maxCohereAngle, false)
    && (Abs(tc - a) <= s.maxCohereAngle ==> h == tc)
  }

  /** The align-and-cohere branch of `Steer` is cohere applied to align's result. */
  lemma SteerAlignsThenCoheres(b: Boid, ns: seq<Agent>, s: Settings, sp: Space, nm: Numerics)
    requires ChooseRule(b, ns, s, sp).AlignCohere?
    ensures Steer(b, ns, s, sp, nm) == Cohere(Align(b.heading, BoidsAmong(ns), s, nm), b.pos, BoidsAmong(ns), s, sp, nm)
  {
  }

  /** Aligning and then cohering, whatever the boid or its neighbours. */
  lemma AlignedThenCohered(heading: real, pos: Vec, bs: seq<Boid>, s: Settings, sp: Space, nm: Numerics)
    ensures AlignsThenCoheres(heading, Cohere(Align(heading, bs, s, nm), pos, bs, s, sp, nm), pos, bs, s, sp, nm)
  {
  }

  /**
   * When separation fires, neither alignment nor cohesion contributes: the
   * turn depends on the nearest boid's heading only, not on the direction
   * vectors, the displacements or the arc tangent.
   */
  lemma SeparationExcludesFlocking(b: Boid, ns: seq<Agent>, s: Settings, sp: Space, nm: Numerics,
                                   headingTo': (Vec, Vec) -> Vec, nm': Numerics)
    requires ChooseRule(b, ns, s, sp).SeparateFrom?
    ensures var k := ChooseRule(b, ns, s, sp).nearest;
      Steer(b, ns, s, sp, nm) == b.heading + AdjustAngle(b.heading, ns[k].boid.heading, s.maxSeparateAngle, true)
    ensures Steer(b, ns, s, sp.(headingTo := headingTo'), nm') == Steer(b, ns, s, sp, nm)
  {
    var sp' := sp.(headingTo := headingTo');
    var k := ChooseRule(b, ns, s, sp).nearest;
    assert forall j :: 0 <= j < |ns| ==> Dist(b.pos, ns[j], sp') == Dist(b.pos, ns[j], sp);
    assert IsFirstNearest(b.pos, ns, sp', k);
    assert ChooseRule(b, ns, s, sp') == SeparateFrom(k);
  }

  /** Whether the step reflects at the edge. */
  predicate Reflects(b: Boid, ns: seq<Agent>, s: Settings, sp: Space, nm: Numerics) {
    var h := Steer(b, ns, s, sp, nm);
    !s.toroidal && sp.outOfBounds(nm.advance(b.pos, SetHeading(h, h, nm), b.speed))
  }

  /**
   * `Boid.step`. The heading the rules produce is stored as it is (the
   * source does not normalise it); the direction vector is derived from it;
   * the candidate position is one move along that vector. On a bounded
   * space an out-of-bounds candidate is replaced, once and without a
   * second check, by one move from the old position along the reversed
   * vector, and the heading turns by half a turn. Identity, speed, vision
   * and the factors never change.
   */
  function Step(b: Boid, ns: seq<Agent>, s: Settings, sp: Space, nm: Numerics): (r: Boid)
    ensures r == b.(pos := r.pos, heading := r.heading, headingx := r.headingx, headingy := r.headingy)
    ensures r.headingx == -1.0 || r.headingx == 0.0 || r.headingx == 1.0
    ensures r.headingx == 0.0 ==> r.headingy == 1.0 || r.headingy == -1.0
  {
    var h := Steer(b, ns, s, sp, nm);
    var dir := SetHeading(h, h, nm);
    var candidate := nm.advance(b.pos, dir, b.speed);
    if !s.toroidal && sp.outOfBounds(candidate) then
      b.(heading := CorrectAngle(h - 180.0), headingx := -dir.x, headingy := -dir.y,
         pos := nm.advance(b.pos, Neg(dir), b.speed))
    else
      b.(heading := h, headingx := dir.x, headingy := dir.y, pos := candidate)
  }

  /**
   * Without reflection the step keeps the steered heading and moves along
   * its direction. With reflection the direction vector is exactly
   * reversed, the heading becomes `correctAngle(heading - 180)` (so it
   * differs from the steered one by an odd number of half turns), and the
   * position is one reversed move from the old one.
   */
  lemma StepMovesOrReflects(b: Boid, ns: seq<Agent>, s: Settings, sp: Space, nm: Numerics)
    ensures var h := Steer(b, ns, s, sp, nm);
      var dir := SetHeading(h, h, nm);
      var r := Step(b, ns, s, sp, nm);
      if Reflects(b, ns, s, sp, nm) then
        && Vec(r.headingx, r.headingy) == Neg(dir)
        && r.heading == CorrectAngle(h - 180.0)
        && (r.heading - h == -540.0 || r.heading - h == -180.0 || r.heading - h == 180.0)
        && r.pos == nm.advance(b.pos, Neg(dir), b.speed)
      else
        && r.heading == h
        && Vec(r.headingx, r.headingy) == dir
        && r.pos == nm.advance(b.pos, dir, b.speed)
  {
  }

  /**
   * The reflection is tried once: when the reversed move leaves a bounded
   * space as well (on a space whose every point is out of bounds, say), the
   * step still commits it, out of bounds.
   */
  lemma ReflectionIsSingleAttempt(b: Boid, ns: seq<Agent>, s: Settings, sp: Space, nm: Numerics)
    requires Reflects(b, ns, s, sp, nm)
    requires var h := Steer(b, ns, s, sp, nm);
      sp.outOfBounds(nm.advance(b.pos, Neg(SetHeading(h, h, nm)), b.speed))
    ensures var h := Steer(b, ns, s, sp, nm);
      Step(b, ns, s, sp, nm).pos == nm.advance(b.pos, Neg(SetHeading(h, h, nm)), b.speed)
    ensures sp.outOfBounds(Step(b, ns, s, sp, nm).pos)
  {
  }

  /**
   * The direction vector a step stores is the one `setHeading` gives for
   * the heading it stores, reflected or not, for a tangent that repeats
   * every half turn and a steered heading in [-180, 270] other than -90
   * and 90. Reflection turns a forward heading into a backward one and
   * back, which flips the x component, and the tangent is the same half a
   * turn apart. At 90 the reflected heading is -90, which `setHeading`
   * does not special-case.
   */
  lemma StepKeepsDirection(b: Boid, ns: seq<Agent>, s: Settings, sp: Space, nm: Numerics)
    requires TanPeriodic(nm)
    requires var h := Steer(b, ns, s, sp, nm); -180.0 <= h <= 270.0 && h != -90.0 && h != 90.0
    ensures var r := Step(b, ns, s, sp, nm);
      Vec(r.headingx, r.headingy) == SetHeading(r.heading, r.heading, nm)
  {
    var h := Steer(b, ns, s, sp, nm);
    if Reflects(b, ns, s, sp, nm) {
      if h < -90.0 {
        assert CorrectAngle(h - 180.0) == h + 180.0;
        assert nm.tanDeg(h) == nm.tanDeg(h + 180.0);
      } else if h < 90.0 && h - 180.0 < -180.0 {
        assert CorrectAngle(h - 180.0) == h + 180.0;
        assert nm.tanDeg(h) == nm.tanDeg(h + 180.0);
      } else if h < 270.0 {
        assert CorrectAngle(h - 180.0) == h - 180.0;
        assert nm.tanDeg(h - 180.0) == nm.tanDeg(h);
      }
    }
  }

  /**
   * The stored heading is not normalised: a boid at 180 degrees that
   * separates from a close boid heading 0 ends the step beyond 180.
   */
  lemma HeadingNotNormalised(b: Boid, n: Boid, s: Settings, sp: Space, nm: Numerics)
    requires s.toroidal && 0.0 < s.maxSeparateAngle
    requires b.heading == 180.0 && n.heading == 0.0
    requires sp.distance(b.pos, n.pos) < s.minimumSeparation
    ensures Step(b, [BoidAgent(n)], s, sp, nm).heading > 180.0
  {
    var ns := [BoidAgent(n)];
    assert IsFirstNearest(b.pos, ns, sp, 0);
    assert ChooseRule(b, ns, s, sp) == SeparateFrom(0);
  }

}

=== FILE: flock.dfy ===
/**
 * The flocking model of model.py: its configuration, the creation of the
 * boids, the id counter for traces, and the bookkeeping of one model step
 * over mesa's schedule and space, here a map of agents by id, a map of
 * positions by id and a set of scheduled ids.
 */
module Flock {
  import opened Geometry
  import opened Traces
  import opened Boids

  datatype Config = Config(
    population: int,
    width: real,
    height: real,
    toroidal: bool,
    speed: real,
    vision: real,
    separation: real,
    cohereFactor: real,
    separateFactor: real,
    matchFactor: real,
    traceAgent: bool,
    initialAge: int,
    minimumSeparation: real,
    maxSeparateAngle: real,
    maxCohereAngle: real,
    maxAlignAngle: real
  )

  /** The model attributes a boid's step reads. */
  function SettingsOf(c: Config): Settings {
    Settings(c.toroidal, c.minimumSeparation, c.maxSeparateAngle, c.maxCohereAngle, c.maxAlignAngle)
  }

  datatype World = World(
    config: Config,
    agents: map<int, Agent>,
    space: map<int, Vec>,
    schedule: set<int>,
    /** the last trace id handed out */
    traces: int,
    running: bool
  )

  /**
   * Schedule and space hold the same agents, each under its own id and at
   * its own position; boid ids lie in [0, population) and trace ids in
   * (population + 100, traces], so the two never meet.
   */
  ghost predicate Consistent(w: World) {
    && w.agents.Keys == w.schedule
    && w.space.Keys == w.schedule
    && w.config.population + 100 <= w.traces
    && (forall id :: id in w.agents ==> w.agents[id].Id() == id && w.space[id] == w.agents[id].Pos())
    && (forall id :: id in w.agents ==>
          if w.agents[id].BoidAgent? then 0 <= id < w.config.population
          else w.config.population + 100 < id <= w.traces)
  }

  /** `place_agent` followed by `schedule.add`. */
  function Place(w: World, a: Agent): World {
    w.(agents := w.agents[a.Id() := a], space := w.space[a.Id() := a.Pos()], schedule := w.schedule + {a.Id()})
  }

  /**
   * The `i`-th boid of `make_agents`. `draw(k)` is the k-th value of the
   * model's random generator and `npDraw(k)` the k-th of numpy's; each boid
   * takes two of each. No heading is passed, so the heading and the
   * direction vector start at zero.
   */
  function NewBoid(c: Config, i: nat, draw: nat -> real, npDraw: nat -> real): Boid {
    Boid(i, Vec(Stretch(draw(2 * i), c.width), Stretch(draw(2 * i + 1), c.height)), c.speed,
         Vec(npDraw(2 * i) * 2.0 - 1.0, npDraw(2 * i + 1) * 2.0 - 1.0),
         c.vision, c.separation, c.cohereFactor, c.separateFactor, c.matchFactor, 0.0, 0.0, 0.0)
  }

  /** The first `n` rounds of the loop in `make_agents`. */
  function MakeAgents(w: World, draw: nat -> real, npDraw: nat -> real, n: nat): World {
    if n == 0 then w
    else Place(MakeAgents(w, draw, npDraw, n - 1), BoidAgent(NewBoid(w.config, n - 1, draw, npDraw)))
  }

  function Count(population: int): nat {
    if population < 0 then 0 else population
  }

  /** The model before `make_agents`, with the counters it ends with. */
  function Empty(c: Config): World {
    World(c, map[], map[], {}, c.population + 100, true)
  }

  /**
   * `BoidFlockers.__init__`: the boids are made first, then the trace
   * counter starts at population + 100 and the model is running.
   */
  function Init(c: Config, draw: nat -> real, npDraw: nat -> real): World {
    MakeAgents(Empty(c), draw, npDraw, Count(c.population))
  }

  /** The ids 0 to n - 1. */
  function Ids(n: nat): (s: set<int>)
    ensures forall i :: i in s <==> 0 <= i < n
    ensures |s| == n
  {
    if n == 0 then {} else Ids(n - 1) + {n - 1}
  }

  /** The first `n` rounds schedule and place exactly the ids 0 to n - 1. */
  lemma {:induction false} MakeAgentsIds(c: Config, draw: nat -> real, npDraw: nat -> real, n: nat)
    ensures var w := MakeAgents(Empty(c), draw, npDraw, n);
      && w.schedule == Ids(n)
      && w.agents.Keys == Ids(n)
      && w.space.Keys == Ids(n)
  {
    if n > 0 {
      MakeAgentsIds(c, draw, npDraw, n - 1);
      var prev := MakeAgents(Empty(c), draw, npDraw, n - 1);
      var a := BoidAgent(NewBoid(c, n - 1, draw, npDraw));
      PlaceKeys(prev, a);
      assert Ids(n) == Ids(n - 1) + {n - 1};
    }
  }

  /** Placing an agent adds its id to the schedule, the agents and the space. */
  lemma PlaceKeys(w: World, a: Agent)
    ensures Place(w, a).schedule == w.schedule + {a.Id()}
    ensures Place(w, a).agents.Keys == w.agents.Keys + {a.Id()}
    ensures Place(w, a).space.Keys == w.space.Keys + {a.Id()}
  {
  }

  /** ... and the agent under id i is the i-th boid made, placed at its own position. */
  lemma {:induction false} MakeAgentsContents(c: Config, draw: nat -> real, npDraw: nat -> real, n: nat)
    ensures var w := MakeAgents(Empty(c), draw, npDraw, n);
      && w.config == c
      && w.traces == c.population + 100
      && w.running
      && (forall i :: i in w.agents ==> w.agents[i] == BoidAgent(NewBoid(c, i, draw, npDraw)))
      && (forall i :: i in w.agents ==> i in w.space && w.space[i] == w.agents[i].Pos())
  {
    if n > 0 {
      MakeAgentsContents(c, draw, npDraw, n - 1);
      var prev := MakeAgents(Empty(c), draw, npDraw, n - 1);
      var b := NewBoid(c, n - 1, draw, npDraw);
      var w := MakeAgents(Empty(c), draw, npDraw, n);
      assert w.agents == prev.agents[n - 1 := BoidAgent(b)];
      assert w.space == prev.space[n - 1 := b.pos];
    }
  }

  /** The model `__init__` builds is consistent. */
  lemma InitConsistent(c: Config, draw: nat -> real, npDraw: nat -> real)
    ensures Consistent(Init(c, draw, npDraw))
  {
    var n := Count(c.population);
    MakeAgentsIds(c, draw, npDraw, n);
    MakeAgentsContents(c, draw, npDraw, n);
    var w := Init(c, draw, npDraw);
    forall id | id in w.agents
      ensures w.agents[id].Id() == id && w.agents[id].BoidAgent? && 0 <= id < c.population
    {
      assert id in Ids(n);
    }
  }

  /**
   * `make_agents` creates exactly `population` boids (none when it is
   * negative), with ids 0 to population - 1, each placed in the space and
   * on the schedule; the model is running and its trace counter starts at
   * population + 100, above every boid id.
   */
  lemma InitMakesBoids(c: Config, draw: nat -> real, npDraw: nat -> real)
    ensures var w := Init(c, draw, npDraw);
      && w.running
      && w.traces == c.population + 100
      && (forall i :: i in w.schedule <==> 0 <= i < c.population)
      && |w.schedule| == Count(c.population)
      && w.space.Keys == w.schedule
      && (forall id :: id in w.agents ==> w.agents[id] == BoidAgent(NewBoid(c, id, draw, npDraw)))
  {
    var n := Count(c.population);
    MakeAgentsIds(c, draw, npDraw, n);
    MakeAgentsContents(c, draw, npDraw, n);
  }

  /**
   * Every boid made carries the model's speed, vision, separation and
   * factors, and starts with heading 0 and direction (0, 0): no heading is
   * passed to the constructor.
   */
  lemma NewBoidShares(c: Config, i: nat, draw: nat -> real, npDraw: nat -> real)
    ensures var b := NewBoid(c, i, draw, npDraw);
      && b.id == i
      && b.speed == c.speed && b.vision == c.vision && b.separation == c.separation
      && b.cohereFactor == c.cohereFactor && b.separateFactor == c.separateFactor && b.matchFactor == c.matchFactor
      && b.heading == 0.0 && b.headingx == 0.0 && b.headingy == 0.0
  {
  }

  /** With draws in [0, 1) every boid starts inside [0, width) x [0, height). */
  lemma InitPositionsInBounds(c: Config, draw: nat -> real, npDraw: nat -> real)
    requires c.width > 0.0 && c.height > 0.0
    requires forall k :: 0.0 <= draw(k) < 1.0
    ensures var w := Init(c, draw, npDraw);
      forall id :: id in w.space ==>
        0.0 <= w.space[id].x < c.width && 0.0 <= w.space[id].y < c.height
  {
    var n := Count(c.population);
    MakeAgentsIds(c, draw, npDraw, n);
    MakeAgentsContents(c, draw, npDraw, n);
    var w := Init(c, draw, npDraw);
    forall id | id in w.space
      ensures 0.0 <= w.space[id].x < c.width && 0.0 <= w.space[id].y < c.height
    {
      assert id in Ids(n);
      var i: nat := id;
      assert w.space[id] == NewBoid(c, i, draw, npDraw).pos;
      NewBoidInBounds(c, i, draw, npDraw);
    }
  }

  lemma NewBoidInBounds(c: Config, i: nat, draw: nat -> real, npDraw: nat -> real)
    requires c.width > 0.0 && c.height > 0.0
    requires 0.0 <= draw(2 * i) < 1.0 && 0.0 <= draw(2 * i + 1) < 1.0
    ensures var p := NewBoid(c, i, draw, npDraw).pos;
      0.0 <= p.x < c.width && 0.0 <= p.y < c.height
  {
  }

  /** `random() * size`: a draw in [0, 1) stretched over [0, size). */
  function Stretch(u: real, size: real): (r: real)
    ensures 0.0 <= u < 1.0 && 0.0 < size ==> 0.0 <= r < size
  {
    assert size - u * size == (1.0 - u) * size;
    u * size
  }

  /**
   * `Boid.trace`: the next trace id, one above the counter, with the
   * model's initial age, placed and scheduled. In a consistent model the id
   * is above every id in use, so it is fresh.
   */
  function SpawnTrace(w: World, pos: Vec): (r: World)
    ensures r.traces == w.traces + 1
    ensures r.config == w.config && r.running == w.running
    ensures r.traces in r.agents && r.agents[r.traces] == TraceAgent(Trace(r.traces, pos, w.config.initialAge))
    ensures forall j :: j in w.agents && j != r.traces ==> j in r.agents && r.agents[j] == w.agents[j]
    ensures forall j :: j in w.space && j != r.traces ==> j in r.space && r.space[j] == w.space[j]
    ensures Consistent(w) ==> forall id :: id in w.agents ==> id < r.traces
    ensures Consistent(w) ==> Consistent(r) && r.schedule == w.schedule + {r.traces} && r.traces !in w.schedule
  {
    var id := w.traces + 1;
    Place(w.(traces := id), TraceAgent(Trace(id, pos, w.config.initialAge)))
  }

  /**
   * A boid's step inside the model: the boid is updated and moved in the
   * space, and with tracing on one trace is left at its new position.
   * Every other agent stays as it was.
   */
  function BoidTick(w: World, id: int, ns: seq<Agent>, sp: Space, nm: Numerics): (r: World)
    requires id in w.agents && w.agents[id].BoidAgent?
    ensures r.config == w.config && r.running == w.running
    ensures r.traces == w.traces + (if w.config.traceAgent then 1 else 0)
    ensures !w.config.traceAgent ==> r.schedule == w.schedule
    ensures Consistent(w) ==> Consistent(r)
    ensures Consistent(w) ==> r.agents.Keys == w.agents.Keys + (if w.config.traceAgent then {r.traces} else {})
    ensures Consistent(w) ==>
      var b := Step(w.agents[id].boid, ns, SettingsOf(w.config), sp, nm);
      && id in r.agents && r.agents[id] == BoidAgent(b)
      && id in r.space && r.space[id] == b.pos
      && (forall j :: j in w.agents && j != id ==> j in r.agents && r.agents[j] == w.agents[j])
      && (w.config.traceAgent ==> r.traces in r.agents && r.agents[r.traces] == TraceAgent(Trace(r.traces, b.pos, w.config.initialAge)))
  {
    Commit(w, id, Step(w.agents[id].boid, ns, SettingsOf(w.config), sp, nm))
  }

  /**
   * The end of `Boid.step` for the boid's new state `b`: `move_agent`, then
   * `trace` when tracing is on.
   */
  function Commit(w: World, id: int, b: Boid): (r: World)
    requires id in w.agents && w.agents[id].BoidAgent?
    requires b.id == w.agents[id].boid.id
    ensures r.config == w.config && r.running == w.running
    ensures r.traces == w.traces + (if w.config.traceAgent then 1 else 0)
    ensures !w.config.traceAgent ==> r.schedule == w.schedule
    ensures Consistent(w) ==> Consistent(r)
    ensures Consistent(w) ==> r.agents.Keys == w.agents.Keys + (if w.config.traceAgent then {r.traces} else {})
    ensures Consistent(w) ==>
      && id in r.agents && r.agents[id] == BoidAgent(b)
      && id in r.space && r.space[id] == b.pos
      && (forall j :: j in w.agents && j != id ==> j in r.agents && r.agents[j] == w.agents[j])
      && (w.config.traceAgent ==> r.traces in r.agents && r.agents[r.traces] == TraceAgent(Trace(r.traces, b.pos, w.config.initialAge)))
  {
    var moved := w.(agents := w.agents[id := BoidAgent(b)], space := w.space[id := b.pos]);
    assert Consistent(w) ==> Consistent(moved);
    if w.config.traceAgent then SpawnTrace(moved, b.pos) else moved
  }

  /**
   * A trace's step inside the model: aged in place, or removed from the
   * agents, the space and the schedule together.
   */
  function TraceTick(w: World, id: int): (r: World)
    requires id in w.agents && w.agents[id].TraceAgent?
    ensures r.traces == w.traces
    ensures match Age(w.agents[id].trace)
      case Removed(_) => r.schedule == w.schedule - {id} && id !in r.agents && id !in r.space
      case Kept(t) => r.schedule == w.schedule && r.agents == w.agents[id := TraceAgent(t)]
    ensures forall j :: j in w.agents && j != id ==> j in r.agents && r.agents[j] == w.agents[j]
    ensures r.config == w.config && r.running == w.running
    ensures Consistent(w) ==> Consistent(r)
  {
    match Age(w.agents[id].trace)
    case Removed(_) =>
      w.(agents := w.agents - {id}, space := w.space - {id}, schedule := w.schedule - {id})
    case Kept(t) =>
      w.(agents := w.agents[id := TraceAgent(t)])
  }

  /**
   * The activations of one step over the ids in `order`; the k-th sees the
   * neighbours `views[k]`, given as an input rather than computed from the
   * space at that moment. An id no longer in the
   * model is skipped, as mesa skips agents removed during the step. The
   * model stays consistent, the trace counter only grows, and boids stay
   * boids.
   */
  function Activations(w: World, order: seq<int>, views: seq<seq<Agent>>, sp: Space, nm: Numerics): (r: World)
    requires |views| == |order|
    ensures Consistent(w) ==> Consistent(r)
    ensures w.traces <= r.traces
    ensures r.config == w.config && r.running == w.running
    ensures Consistent(w) ==>
      forall id :: id in w.agents && w.agents[id].BoidAgent? ==> id in r.agents && r.agents[id].BoidAgent?
    decreases |order|
  {
    if order == [] then w
    else Activations(Activate(w, order[0], views[0], sp, nm), order[1..], views[1..], sp, nm)
  }

  /**
   * What activating `a`, the agent under `id` when its turn comes, leaves
   * under `id` in `r`: a boid is replaced by its step seeing `ns`; a trace
   * is aged once, and gone when its age falls below zero.
   */
  ghost predicate Outcome(id: int, a: Agent, c: Config, ns: seq<Agent>, sp: Space, nm: Numerics, r: World) {
    match a
    case BoidAgent(b) => id in r.agents && r.agents[id] == BoidAgent(Step(b, ns, SettingsOf(c), sp, nm))
    case TraceAgent(t) =>
      match Age(t)
      case Removed(_) => id !in r.agents
      case Kept(aged) => id in r.agents && r.agents[id] == TraceAgent(aged)
  }

  /**
   * One activation: a boid steps, a trace ages, a removed id is skipped.
   * Other agents stay as they were, and an id that was free and already
   * handed out stays free: the only id added is the next trace id, which a
   * stepping boid with tracing on fills with a fresh trace at its new
   * position.
   */
  function Activate(w: World, id: int, ns: seq<Agent>, sp: Space, nm: Numerics): (r: World)
    ensures Consistent(w) ==> Consistent(r)
    ensures r.config == w.config && r.running == w.running
    ensures r.traces == w.traces + (if id in w.agents && w.agents[id].BoidAgent? && w.config.traceAgent then 1 else 0)
    ensures id !in w.agents ==> r == w
    ensures Consistent(w) && id in w.agents ==> Outcome(id, w.agents[id], w.config, ns, sp, nm, r)
    ensures Consistent(w) ==> forall j :: j in w.agents && j != id ==> j in r.agents && r.agents[j] == w.agents[j]
    ensures Consistent(w) ==> forall j :: j !in w.agents && j <= w.traces ==> j !in r.agents
    ensures Consistent(w) ==> r.agents.Keys <= w.agents.Keys + {r.traces}
    ensures Consistent(w) && id in w.agents && w.agents[id].BoidAgent? ==> id in r.agents && r.agents[id].BoidAgent?
    ensures Consistent(w) && id in w.agents && w.agents[id].BoidAgent? && w.config.traceAgent ==>
      && r.traces in r.schedule
      && TraceAt(r, r.traces, r.agents[id].boid.pos)
  {
    if id !in w.agents then w
    else if w.agents[id].BoidAgent? then BoidTick(w, id, ns, sp, nm)
    else TraceTick(w, id)
  }

  /** Under `id`, `r` holds a trace of that id at `pos`, with the model's initial age. */
  ghost predicate TraceAt(r: World, id: int, pos: Vec) {
    id in r.agents && r.agents[id] == TraceAgent(Trace(id, pos, r.config.initialAge))
  }

  /** The entries of `order` that name a boid of `w`, in order. */
  function ListedBoidIds(w: World, order: seq<int>): (bs: seq<int>)
    ensures |bs| == BoidsListed(w, order)
  {
    if order == [] then []
    else (if order[0] in BoidIds(w) then [order[0]] else []) + ListedBoidIds(w, order[1..])
  }

  /** `SpawnsTraces` holds of every order, by induction on it. */
  lemma {:induction false} SpawnedTraces(w: World, order: seq<int>, views: seq<seq<Agent>>, sp: Space, nm: Numerics)
    requires |views| == |order|
    ensures SpawnsTraces(w, order, views, sp, nm)
    decreases |order|
  {
    if order != [] {
      SpawnedTraces(Activate(w, order[0], views[0], sp, nm), order[1..], views[1..], sp, nm);
      TracesAfterFirst(w, order, views, sp, nm);
    }
  }

  /**
   * With tracing on, over distinct ids of a consistent model, the i-th
   * listed boid leaves a trace under id traces + 1 + i, at the position the
   * boid ends on and with the initial age, and that trace is still there,
   * unaged, when the activations end.
   */
  ghost predicate SpawnsTraces(w: World, order: seq<int>, views: seq<seq<Agent>>, sp: Space, nm: Numerics)
    requires |views| == |order|
  {
    Consistent(w) && Listed(w, order) && w.config.traceAgent ==>
      TracesFor(Activations(w, order, views, sp, nm), ListedBoidIds(w, order), w.traces + 1)
  }

  /** Each boid of `bs` is in `r` with a trace at its position, numbered on from `first`. */
  ghost predicate TracesFor(r: World, bs: seq<int>, first: int) {
    forall i :: 0 <= i < |bs| ==>
      bs[i] in r.agents && r.agents[bs[i]].BoidAgent? && TraceAt(r, first + i, r.agents[bs[i]].boid.pos)
  }

  /** After the first activation the rest of the order is still listed, and lists the same boids. */
  lemma NextListed(w: World, order: seq<int>, views: seq<seq<Agent>>, sp: Space, nm: Numerics)
    requires |views| == |order| && order != []
    ensures var next := Activate(w, order[0], views[0], sp, nm);
      Consistent(w) && Listed(w, order) ==>
        && Consistent(next) && Listed(next, order[1..])
        && ListedBoidIds(next, order[1..]) == ListedBoidIds(w, order[1..])
  {
    if Consistent(w) && Listed(w, order) {
      var next := Activate(w, order[0], views[0], sp, nm);
      KeptForLater(w, next, order);
      SameBoidIds(w, next, order[1..]);
    }
  }

  /**
   * The traces the activations after the first leave, numbered on from the
   * counter the first one leaves, extend to the whole order.
   */
  lemma TracesAfterFirst(w: World, order: seq<int>, views: seq<seq<Agent>>, sp: Space, nm: Numerics)
    requires |views| == |order| && order != []
    ensures SpawnsTraces(Activate(w, order[0], views[0], sp, nm), order[1..], views[1..], sp, nm) ==> SpawnsTraces(w, order, views, sp, nm)
  {
    NextListed(w, order, views, sp, nm);
    FirstTraceKept(w, order, views, sp, nm);
    ConsTraces(Activations(w, order, views, sp, nm), w, order, w.traces + 1, Activate(w, order[0], views[0], sp, nm).traces + 1);
  }

  /**
   * The traces of the boids listed after the first entry, numbered on from
   * `second`, extend to the whole order from `first`: one below when the
   * first entry is a boid with its trace at `first`, the same otherwise.
   */
  lemma ConsTraces(r: World, w: World, order: seq<int>, first: int, second: int)
    requires order != []
    ensures
      && (order[0] in BoidIds(w) ==>
            second == first + 1 && order[0] in r.agents && r.agents[order[0]].BoidAgent?
            && TraceAt(r, first, r.agents[order[0]].boid.pos))
      && (order[0] !in BoidIds(w) ==> second == first)
      && TracesFor(r, ListedBoidIds(w, order[1..]), second)
      ==> TracesFor(r, ListedBoidIds(w, order), first)
  {
    var tail := ListedBoidIds(w, order[1..]);
    if order[0] in BoidIds(w) {
      var bs := [order[0]] + tail;
      assert ListedBoidIds(w, order) == bs;
      forall i | 1 <= i < |bs|
        ensures TracesFor(r, tail, second) && second == first + 1 ==>
          bs[i] in r.agents && r.agents[bs[i]].BoidAgent? && TraceAt(r, first + i, r.agents[bs[i]].boid.pos)
      {
        assert bs[i] == tail[i - 1];
      }
    } else {
      assert ListedBoidIds(w, order) == [] + tail;
    }
  }

  /**
   * The first listed entry, when a boid, keeps its entry and its trace,
   * under the next id, through the activations after it, which list only
   * older ids.
   */
  lemma FirstTraceKept(w: World, order: seq<int>, views: seq<seq<Agent>>, sp: Space, nm: Numerics)
    requires |views| == |order| && order != []
    ensures Consistent(w) && Listed(w, order) && w.config.traceAgent && order[0] in BoidIds(w) ==>
      var r := Activations(w, order, views, sp, nm);
      order[0] in r.agents && r.agents[order[0]].BoidAgent? && TraceAt(r, w.traces + 1, r.agents[order[0]].boid.pos)
  {
    if Consistent(w) && Listed(w, order) && w.config.traceAgent && order[0] in BoidIds(w) {
      var next := Activate(w, order[0], views[0], sp, nm);
      var rest, vs := order[1..], views[1..];
      assert Activations(w, order, views, sp, nm) == Activations(next, rest, vs, sp, nm);
      assert order[0] !in rest && w.traces + 1 !in rest by {
        forall k | 0 <= k < |rest| ensures rest[k] != order[0] && rest[k] != w.traces + 1 {
          assert rest[k] == order[k + 1] && order[k + 1] in w.agents;
        }
      }
      Untouched(next, rest, vs, sp, nm, w.traces + 1);
      Untouched(next, rest, vs, sp, nm, order[0]);
      var r := Activations(next, rest, vs, sp, nm);
      assert next.traces == w.traces + 1 && r.config == next.config;
      assert r.agents[w.traces + 1] == next.agents[next.traces];
    }
  }

  /** Over distinct ids, the listed boids are boids of `w` named in `order`, each once. */
  lemma {:induction false} ListedBoidIdsDistinct(w: World, order: seq<int>)
    requires forall j, k :: 0 <= j < k < |order| ==> order[j] != order[k]
    ensures var bs := ListedBoidIds(w, order);
      && (forall i :: 0 <= i < |bs| ==> bs[i] in BoidIds(w) && bs[i] in order)
      && (forall i, j :: 0 <= i < j < |bs| ==> bs[i] != bs[j])
    decreases |order|
  {
    if order != [] {
      var rest := order[1..];
      ListedBoidIdsDistinct(w, rest);
      var tail := ListedBoidIds(w, rest);
      var head := if order[0] in BoidIds(w) then [order[0]] else [];
      assert ListedBoidIds(w, order) == head + tail;
      assert forall i :: 0 <= i < |ListedBoidIds(w, order[1..])| ==> ListedBoidIds(w, order[1..])[i] in order[1..];
      forall i | 0 <= i < |tail| ensures tail[i] in order && tail[i] != order[0] {
        assert tail[i] in rest;
        var k :| 0 <= k < |rest| && rest[k] == tail[i];
        assert rest[k] == order[k + 1];
      }
    }
  }

  /** Models that agree on the listed ids list the same boids. */
  lemma {:induction false} SameBoidIds(w: World, v: World, order: seq<int>)
    requires forall k :: 0 <= k < |order| ==> order[k] in w.agents && order[k] in v.agents && v.agents[order[k]] == w.agents[order[k]]
    ensures ListedBoidIds(v, order) == ListedBoidIds(w, order)
  {
    if order != [] {
      SameBoidIds(w, v, order[1..]);
    }
  }

  /** How many entries of `order` name a boid of `w`. */
  function BoidsListed(w: World, order: seq<int>): nat {
    if order == [] then 0
    else (if order[0] in w.agents && w.agents[order[0]].BoidAgent? then 1 else 0) + BoidsListed(w, order[1..])
  }

  /** The ids of the boids of `w`. */
  function BoidIds(w: World): set<int> {
    set id | id in w.agents && w.agents[id].BoidAgent?
  }

  /** `RandomActivation`'s order for a step: every agent scheduled at its start, once. */
  ghost predicate IsSnapshotOrder(order: seq<int>, schedule: set<int>) {
    && (forall k :: 0 <= k < |order| ==> order[k] in schedule)
    && (forall id :: id in schedule ==> id in order)
    && (forall j, k :: 0 <= j < k < |order| ==> order[j] != order[k])
  }

  /** The ids of `order` are distinct and all in the model. */
  ghost predicate Listed(w: World, order: seq<int>) {
    && (forall k :: 0 <= k < |order| ==> order[k] in w.agents)
    && (forall j, k :: 0 <= j < k < |order| ==> order[j] != order[k])
  }

  /**
   * Over distinct ids of a consistent model, the activations add one trace
   * for each listed boid when tracing is on, and none otherwise: a listed
   * id is still there, of the same kind, when its turn comes.
   */
  lemma {:induction false} OneTracePerBoid(w: World, order: seq<int>, views: seq<seq<Agent>>, sp: Space, nm: Numerics)
    requires |views| == |order|
    requires Consistent(w) && Listed(w, order)
    ensures Activations(w, order, views, sp, nm).traces == w.traces + (if w.config.traceAgent then BoidsListed(w, order) else 0)
    decreases |order|
  {
    if order != [] {
      var next := Activate(w, order[0], views[0], sp, nm);
      var rest := order[1..];
      assert Consistent(next);
      KeptForLater(w, next, order);
      OneTracePerBoid(next, rest, views[1..], sp, nm);
      SameKinds(w, next, rest);
    }
  }

  /** The ids after the first one are still there, unchanged, after it is activated. */
  lemma KeptForLater(w: World, next: World, order: seq<int>)
    requires order != [] && Listed(w, order)
    requires forall j :: j in w.agents && j != order[0] ==> j in next.agents && next.agents[j] == w.agents[j]
    ensures Listed(next, order[1..])
    ensures forall k :: 0 <= k < |order| - 1 ==> order[1..][k] in next.agents && next.agents[order[1..][k]] == w.agents[order[1..][k]]
  {
    var rest := order[1..];
    forall k | 0 <= k < |rest| ensures rest[k] in next.agents && next.agents[rest[k]] == w.agents[rest[k]] {
      assert rest[k] == order[k + 1] && order[k + 1] != order[0];
    }
  }

  /** Models that agree on the listed ids list the same number of boids. */
  lemma {:induction false} SameKinds(w: World, v: World, order: seq<int>)
    requires forall k :: 0 <= k < |order| ==> order[k] in w.agents && order[k] in v.agents && v.agents[order[k]] == w.agents[order[k]]
    ensures BoidsListed(v, order) == BoidsListed(w, order)
  {
    if order != [] {
      SameKinds(w, v, order[1..]);
    }
  }

  /** Over distinct ids, the listed boids are the boids among the ids. */
  lemma {:induction false} ListedBoids(w: World, order: seq<int>)
    requires forall j, k :: 0 <= j < k < |order| ==> order[j] != order[k]
    ensures BoidsListed(w, order) == |set id | id in order && id in BoidIds(w)|
  {
    if order != [] {
      ListedBoids(w, order[1..]);
      var s := set id | id in order && id in BoidIds(w);
      var s' := set id | id in order[1..] && id in BoidIds(w);
      assert order[0] !in order[1..];
      if order[0] in BoidIds(w) {
        assert s == s' + {order[0]};
      } else {
        assert s == s';
      }
    }
  }

  /**
   * Over distinct ids of a consistent model, each listed agent ends as its
   * own activation left it: nothing activated later touches it, and an id
   * freed by a removed trace is never handed out again.
   */
  lemma {:induction false} EachActivated(w: World, order: seq<int>, views: seq<seq<Agent>>, sp: Space, nm: Numerics)
    requires |views| == |order|
    requires Consistent(w) && Listed(w, order)
    ensures forall k :: 0 <= k < |order| ==>
      Outcome(order[k], w.agents[order[k]], w.config, views[k], sp, nm, Activations(w, order, views, sp, nm))
    decreases |order|
  {
    if order != [] {
      var next := Activate(w, order[0], views[0], sp, nm);
      var rest := order[1..];
      var r := Activations(next, rest, views[1..], sp, nm);
      KeptForLater(w, next, order);
      EachActivated(next, rest, views[1..], sp, nm);
      assert order[0] !in rest by {
        forall k | 0 <= k < |rest| ensures rest[k] != order[0] {
          assert rest[k] == order[k + 1];
        }
      }
      Untouched(next, rest, views[1..], sp, nm, order[0]);
      forall k | 1 <= k < |order|
        ensures Outcome(order[k], w.agents[order[k]], w.config, views[k], sp, nm, r)
      {
        assert order[k] == rest[k - 1] && views[k] == views[1..][k - 1];
      }
    }
  }

  /** Activations over ids other than `id` leave `id` as it was, present or free. */
  lemma {:induction false} Untouched(w: World, order: seq<int>, views: seq<seq<Agent>>, sp: Space, nm: Numerics, id: int)
    requires |views| == |order|
    requires Consistent(w) && id !in order
    ensures var r := Activations(w, order, views, sp, nm);
      && (id in w.agents ==> id in r.agents && r.agents[id] == w.agents[id])
      && (id !in w.agents && id <= w.traces ==> id !in r.agents)
    decreases |order|
  {
    if order != [] {
      var next := Activate(w, order[0], views[0], sp, nm);
      assert order[0] != id;
      Untouched(next, order[1..], views[1..], sp, nm, id);
    }
  }

  /** Over a snapshot order of a consistent model, one trace per boid of the model. */
  lemma SnapshotCount(w: World, order: seq<int>, views: seq<seq<Agent>>, sp: Space, nm: Numerics)
    requires |views| == |order| && IsSnapshotOrder(order, w.schedule)
    ensures Consistent(w) ==>
      Activations(w, order, views, sp, nm).traces == w.traces + (if w.config.traceAgent then |BoidIds(w)| else 0)
  {
    if Consistent(w) {
      SnapshotListsAll(w, order);
      OneTracePerBoid(w, order, views, sp, nm);
      ListedBoids(w, order);
    }
  }

  /** A snapshot order of the schedule lists every agent, and so every boid. */
  lemma SnapshotListsAll(w: World, order: seq<int>)
    requires IsSnapshotOrder(order, w.schedule) && w.agents.Keys == w.schedule
    ensures Listed(w, order)
    ensures (set id | id in order && id in BoidIds(w)) == BoidIds(w)
  {
    forall id | id in BoidIds(w) ensures id in order {
      assert id in w.agents;
    }
  }

  /**
   * One model step, `schedule.step()`: `RandomActivation` activates every
   * agent scheduled at the start of the step once, in shuffled order (an
   * input here); traces spawned during the step wait for the next one. The
   * model stays consistent, boids stay boids, and with tracing on every
   * boid leaves exactly one trace, so the trace counter grows by the
   * number of boids; without tracing it stays. Every agent scheduled at
   * the start ends as its own activation left it: each boid is its step
   * seeing its view, each trace aged once or removed. With tracing on, the
   * new ids hold one fresh trace per boid, at that boid's new position.
   * The running flag is untouched.
   */
  function Tick(w: World, order: seq<int>, views: seq<seq<Agent>>, sp: Space, nm: Numerics): (r: World)
    requires |views| == |order|
    requires IsSnapshotOrder(order, w.schedule)
    ensures Consistent(w) ==> Consistent(r)
    ensures r.config == w.config
    ensures Consistent(w) ==>
      forall id :: id in w.agents && w.agents[id].BoidAgent? ==> id in r.agents && r.agents[id].BoidAgent?
    ensures Consistent(w) ==> r.traces == w.traces + (if w.config.traceAgent then |BoidIds(w)| else 0)
    ensures Consistent(w) ==> forall k :: 0 <= k < |order| ==>
      order[k] in w.agents && Outcome(order[k], w.agents[order[k]], w.config, views[k], sp, nm, r)
    ensures r.running == w.running
    ensures Consistent(w) && w.config.traceAgent ==>
      var bs := ListedBoidIds(w, order);
      && |bs| == |BoidIds(w)|
      && (forall i :: 0 <= i < |bs| ==> bs[i] in BoidIds(w))
      && (forall i, j :: 0 <= i < j < |bs| ==> bs[i] != bs[j])
      && TracesFor(r, bs, w.traces + 1)
  {
    SnapshotCount(w, order, views, sp, nm);
    SnapshotOutcomes(w, order, views, sp, nm);
    SnapshotTraces(w, order, views, sp, nm);
    Activations(w, order, views, sp, nm)
  }

  /** Over a snapshot order of a consistent model with tracing on, one fresh trace per boid. */
  lemma SnapshotTraces(w: World, order: seq<int>, views: seq<seq<Agent>>, sp: Space, nm: Numerics)
    requires |views| == |order| && IsSnapshotOrder(order, w.schedule)
    ensures Consistent(w) && w.config.traceAgent ==>
      var bs := ListedBoidIds(w, order);
      var r := Activations(w, order, views, sp, nm);
      && |bs| == |BoidIds(w)|
      && (forall i :: 0 <= i < |bs| ==> bs[i] in BoidIds(w))
      && (forall i, j :: 0 <= i < j < |bs| ==> bs[i] != bs[j])
      && TracesFor(r, bs, w.traces + 1)
  {
    if Consistent(w) && w.config.traceAgent {
      SnapshotListsAll(w, order);
      ListedBoids(w, order);
      ListedBoidIdsDistinct(w, order);
      SpawnedTraces(w, order, views, sp, nm);
    }
  }

  /** Over a snapshot order of a consistent model, every scheduled agent ends as its activation left it. */
  lemma SnapshotOutcomes(w: World, order: seq<int>, views: seq<seq<Agent>>, sp: Space, nm: Numerics)
    requires |views| == |order| && IsSnapshotOrder(order, w.schedule)
    ensures Consistent(w) ==> forall k :: 0 <= k < |order| ==>
      order[k] in w.agents && Outcome(order[k], w.agents[order[k]], w.config, views[k], sp, nm, Activations(w, order, views, sp, nm))
  {
    if Consistent(w) {
      SnapshotListsAll(w, order);
      EachActivated(w, order, views, sp, nm);
    }
  }

  /** In a consistent model every trace id is above every boid id. */
  lemma TraceIdsAboveBoidIds(w: World, b: int, t: int)
    requires Consistent(w)
    requires b in w.agents && w.agents[b].BoidAgent?
    requires t in w.agents && w.agents[t].TraceAgent?
    ensures b + 100 < t
  {
  }

}

=== FILE: geometry.dfy ===
/**
 * Plane vectors and the floating-point library calls the boid steering uses.
 * `math.atan`, `math.tan` and the numpy update `pos + v / |v| * speed` are
 * not computed here: they are fields of a `Numerics` record, so every
 * property below holds for whatever those functions return, unless a lemma
 * names the laws it assumes of them (`TrigLaws`).
 */
module Geometry {

  datatype Vec = Vec(x: real, y: real)

  function Add(u: Vec, v: Vec): Vec {
    Vec(u.x + v.x, u.y + v.y)
  }

  function Neg(v: Vec): Vec {
    Vec(-v.x, -v.y)
  }

  function Scale(v: Vec, k: real): Vec {
    Vec(k * v.x, k * v.y)
  }

  /** `u` is a positive multiple of `v`: the two point the same way. */
  ghost predicate SameDirection(u: Vec, v: Vec) {
    exists k: real {:trigger Scale(v, k)} :: k > 0.0 && u == Scale(v, k)
  }

  /** The library calls of the steering code, left uninterpreted. */
  datatype Numerics = Numerics(
    /** `math.atan(v) / math.pi * 180`: arc tangent in degrees */
    atanDeg: real -> real,
    /** `math.tan(math.pi / 180 * h)`: tangent of an angle in degrees */
    tanDeg: real -> real,
    /** `pos + dir / sqrt(dir.x**2 + dir.y**2) * speed` */
    advance: (Vec, Vec, real) -> Vec
  )

  /**
   * The facts of real trigonometry that the direction round trip needs:
   * atan lands strictly between -90 and 90 degrees, tan undoes it, and tan
   * is odd.
   */
  ghost predicate TrigLaws(nm: Numerics) {
    && (forall v :: -90.0 < nm.atanDeg(v) < 90.0)
    && (forall v :: nm.tanDeg(nm.atanDeg(v)) == v)
    && (forall h :: nm.tanDeg(-h) == -nm.tanDeg(h))
  }

  /** The tangent repeats every half turn. */
  ghost predicate TanPeriodic(nm: Numerics) {
    forall a, b :: a + 180.0 == b ==> nm.tanDeg(a) == nm.tanDeg(b)
  }

}

=== FILE: schelling.dfy ===
/**
 * The Schelling model of schelling/model.py: an agent is happy when at
 * least `homophily` of its neighbours share its type, and moves to an empty
 * cell otherwise; the model counts the happy agents of a step and stops
 * running once every agent was happy.
 *
 * The neighbour types each agent sees when it is activated are inputs, and
 * so is the random index `move_to_empty` draws among the empty cells.
 */
module Schelling {
  import opened Wrappers
  import opened Segregation

  datatype Model = Model(width: nat, height: nat, homophily: real, radius: int,
                         residents: seq<Resident>, happy: int, running: bool)

  /** Type 1 for the minority, 0 for the majority. */
  const Labels := (1, 0)

  /**
   * `Schelling.__init__` on a width x height grid: placement by the shared
   * rule, no happy agents counted yet, and running as mesa's `Model` starts.
   */
  function Init(width: nat, height: nat, homophily: real, radius: int, density: real, minorityPc: real,
                draw: nat -> real): Model
  {
    var placed := Populate(Cells(width, height), draw, 0, Mix(density, minorityPc, Labels.0, Labels.1));
    Model(width, height, homophily, radius, placed.0, 0, true)
  }

  /**
   * The constructor puts at most one agent on each cell of the grid, of
   * type 1 or 0, and counts no happy agent; the grid it leaves is settled.
   */
  lemma InitPlacement(width: nat, height: nat, homophily: real, radius: int, density: real, minorityPc: real,
                      draw: nat -> real)
    ensures var m := Init(width, height, homophily, radius, density, minorityPc, draw);
      && m.happy == 0
      && |m.residents| <= width * height
      && OnePerCell(m.residents)
      && (forall a :: a in m.residents ==>
            && 0 <= a.cell.x < width && 0 <= a.cell.y < height
            && (a.kind == 1 || a.kind == 0))
    ensures var m := Init(width, height, homophily, radius, density, minorityPc, draw);
      Settled(Occupied(m.residents), width, height)
  {
    PopulateOnePerCell(Cells(width, height), draw, 0, Mix(density, minorityPc, Labels.0, Labels.1));
    PopulateSettled(width, height, draw, 0, Mix(density, minorityPc, Labels.0, Labels.1));
  }

  /** `SchellingAgent.step`'s test: enough neighbours of the agent's own type. */
  predicate IsHappy(kind: int, seen: seq<int>, homophily: real) {
    Similar(kind, seen) as real >= homophily
  }

  /**
   * `SchellingAgent.step` for resident `i`: a happy agent adds one to the
   * model's count and stays; an unhappy one moves to the empty cell
   * `move_to_empty` picks and the count is untouched. No type changes.
   * None when an unhappy agent finds no empty cell, where mesa raises.
   */
  function Activate(m: Model, i: nat, seen: seq<int>, pick: nat): (r: Option<Model>)
    requires i < |m.residents|
    ensures r.None? <==>
      !IsHappy(m.residents[i].kind, seen, m.homophily) && EmptyCell(m.width, m.height, Occupied(m.residents), pick).None?
    ensures r.Some? ==>
      && r.value == m.(residents := r.value.residents, happy := r.value.happy)
      && |r.value.residents| == |m.residents|
      && (forall j :: 0 <= j < |m.residents| && j != i ==> r.value.residents[j] == m.residents[j])
      && r.value.residents[i].kind == m.residents[i].kind
    ensures r.Some? && IsHappy(m.residents[i].kind, seen, m.homophily) ==>
      r.value.happy == m.happy + 1 && r.value.residents == m.residents
    ensures r.Some? && !IsHappy(m.residents[i].kind, seen, m.homophily) ==>
      && r.value.happy == m.happy
      && InGrid(r.value.residents[i].cell, m.width, m.height)
      && r.value.residents[i].cell !in Occupied(m.residents)
    ensures r.Some? && Settled(Occupied(m.residents), m.width, m.height) ==>
      Settled(Occupied(r.value.residents), m.width, m.height)
  {
    if IsHappy(m.residents[i].kind, seen, m.homophily) then
      Some(m.(happy := m.happy + 1))
    else
      match EmptyCell(m.width, m.height, Occupied(m.residents), pick)
      case None => None
      case Some(dest) =>
        RelocateKeepsSettled(m.residents, i, dest, m.width, m.height);
        Some(m.(residents := m.residents[i := m.residents[i].(cell := dest)]))
  }

  /** How many of the first `n` activations find their agent happy. */
  function HappyCount(m: Model, order: seq<nat>, seen: seq<seq<int>>, n: nat): nat
    requires n <= |order| <= |seen|
    requires forall k :: 0 <= k < |order| ==> order[k] < |m.residents|
  {
    if n == 0 then 0
    else HappyCount(m, order, seen, n - 1) + (if IsHappy(m.residents[order[n - 1]].kind, seen[n - 1], m.homophily) then 1 else 0)
  }

  /** The count is at most `n`, and reaches it exactly when every one of them was happy. */
  lemma {:induction false} HappyCountFull(m: Model, order: seq<nat>, seen: seq<seq<int>>, n: nat)
    requires n <= |order| <= |seen|
    requires forall k :: 0 <= k < |order| ==> order[k] < |m.residents|
    ensures HappyCount(m, order, seen, n) <= n
    ensures HappyCount(m, order, seen, n) == n <==>
      forall k :: 0 <= k < n ==> IsHappy(m.residents[order[k]].kind, seen[k], m.homophily)
  {
    if n > 0 {
      HappyCountFull(m, order, seen, n - 1);
    }
  }

  /** Where an activated agent ends: a happy one on its cell, an unhappy one elsewhere on the grid. */
  predicate Placed(m: Model, i: nat, seen: seq<int>, now: Cell)
    requires i < |m.residents|
  {
    if IsHappy(m.residents[i].kind, seen, m.homophily) then now == m.residents[i].cell
    else now != m.residents[i].cell && InGrid(now, m.width, m.height)
  }

  /**
   * What holds after the first `k` activations of a step: settings and
   * types are kept, the happy count is the number of those activations
   * that found their agent happy, a settled grid stays settled, the agents
   * not yet activated are untouched, and each activated agent stayed if
   * happy and moved to another cell of the grid if not.
   */
  ghost predicate Activated(m: Model, order: seq<nat>, seen: seq<seq<int>>, r: Model, k: nat)
    requires IsActivationOrder(order, |m.residents|)
    requires |seen| == |order| && k <= |order|
  {
    && r == m.(residents := r.residents, happy := r.happy)
    && |r.residents| == |m.residents|
    && (forall j :: 0 <= j < |m.residents| ==> r.residents[j].kind == m.residents[j].kind)
    && r.happy == HappyCount(m, order, seen, k)
    && (m.homophily <= 0.0 ==> r.residents == m.residents)
    && (Settled(Occupied(m.residents), m.width, m.height) ==> Settled(Occupied(r.residents), m.width, m.height))
    && (forall j :: k <= j < |order| ==> r.residents[order[j]] == m.residents[order[j]])
    && (forall j :: 0 <= j < k ==> Placed(m, order[j], seen[j], r.residents[order[j]].cell))
  }

  /** One more activation that finds a cell extends what holds by one. */
  lemma ActivateNext(m: Model, order: seq<nat>, seen: seq<seq<int>>, picks: seq<nat>, r: Model, k: nat)
    requires IsActivationOrder(order, |m.residents|)
    requires |seen| == |order| && |picks| == |order| && k < |order|
    requires Activated(m, order, seen, r, k)
    requires Activate(r, order[k], seen[k], picks[k]).Some?
    ensures Activated(m, order, seen, Activate(r, order[k], seen[k], picks[k]).value, k + 1)
  {
    var i := order[k];
    var r' := Activate(r, i, seen[k], picks[k]).value;
    assert r.residents[i] == m.residents[i];
    assert Placed(m, i, seen[k], r'.residents[i].cell) by {
      if !IsHappy(m.residents[i].kind, seen[k], m.homophily) {
        assert Occupied(r.residents)[i] == m.residents[i].cell;
      }
    }
    OthersKept(m, order, seen, r, r', k);
  }

  /** The activation of `order[k]` touches no other agent the order lists. */
  lemma OthersKept(m: Model, order: seq<nat>, seen: seq<seq<int>>, r: Model, r': Model, k: nat)
    requires IsActivationOrder(order, |m.residents|)
    requires |seen| == |order| && k < |order|
    requires |r.residents| == |m.residents| == |r'.residents|
    requires forall j :: 0 <= j < |m.residents| && j != order[k] ==> r'.residents[j] == r.residents[j]
    requires forall j :: k <= j < |order| ==> r.residents[order[j]] == m.residents[order[j]]
    requires forall j :: 0 <= j < k ==> Placed(m, order[j], seen[j], r.residents[order[j]].cell)
    requires Placed(m, order[k], seen[k], r'.residents[order[k]].cell)
    ensures forall j :: k + 1 <= j < |order| ==> r'.residents[order[j]] == m.residents[order[j]]
    ensures forall j :: 0 <= j < k + 1 ==> Placed(m, order[j], seen[j], r'.residents[order[j]].cell)
  {
    forall j | k + 1 <= j < |order| ensures r'.residents[order[j]] == m.residents[order[j]] {
      assert order[j] != order[k];
    }
    forall j | 0 <= j < k + 1 ensures Placed(m, order[j], seen[j], r'.residents[order[j]].cell) {
      if j < k {
        assert order[j] != order[k];
      }
    }
  }

  /**
   * `Schelling.step`: the happy count is reset, every agent is activated
   * once in the scheduler's order, and the model keeps running unless
   * every agent was happy. The count ends between 0 and the number of
   * agents; each agent stays if happy and moves to another cell of the
   * grid if not; a settled grid stays settled; with a homophily of at most
   * 0 nobody moves and the model stops. The step fails only when an
   * unhappy agent finds the grid full, which cannot happen on a settled
   * grid with fewer agents than cells.
   */
  method Step(m: Model, order: seq<nat>, seen: seq<seq<int>>, picks: seq<nat>) returns (r: Option<Model>)
    requires IsActivationOrder(order, |m.residents|)
    requires |seen| == |order| && |picks| == |order|
    ensures r.None? ==> exists k :: 0 <= k < |order| && !IsHappy(m.residents[order[k]].kind, seen[k], m.homophily)
    ensures Settled(Occupied(m.residents), m.width, m.height) && |m.residents| < m.width * m.height ==> r.Some?
    ensures r.Some? ==> 0 <= r.value.happy <= |m.residents|
    ensures r.Some? ==>
      (!r.value.running <==> forall k :: 0 <= k < |order| ==> IsHappy(m.residents[order[k]].kind, seen[k], m.homophily))
    ensures r.Some? ==> |r.value.residents| == |m.residents|
    ensures r.Some? ==> forall j :: 0 <= j < |m.residents| ==> r.value.residents[j].kind == m.residents[j].kind
    ensures r.Some? && m.homophily <= 0.0 ==> r.value.residents == m.residents && !r.value.running
    ensures r.Some? && Settled(Occupied(m.residents), m.width, m.height) ==>
      Settled(Occupied(r.value.residents), m.width, m.height)
    ensures r.Some? ==> forall k :: 0 <= k < |order| ==> Placed(m, order[k], seen[k], r.value.residents[order[k]].cell)
    ensures r.Some? ==> r.value.happy == HappyCount(m, order, seen, |order|)
    ensures r.Some? ==> r.value == m.(residents := r.value.residents, happy := r.value.happy, running := r.value.running)
  {
    var cur := m.(happy := 0);
    var k := 0;
    while k < |order|
      invariant 0 <= k <= |order|
      invariant Activated(m, order, seen, cur, k)
    {
      var next := Activate(cur, order[k], seen[k], picks[k]);
      if next.None? {
        if Settled(Occupied(m.residents), m.width, m.height) && |m.residents| < m.width * m.height {
          RoomLeft(m.width, m.height, Occupied(cur.residents), picks[k]);
        }
        return None;
      }
      ActivateNext(m, order, seen, picks, cur, k);
      cur := next.value;
      k := k + 1;
    }
    HappyCountFull(m, order, seen, |order|);
    r := Some(cur.(running := cur.happy != |cur.residents|));
  }

}

=== FILE: schelling_perceive.dfy ===
/**
 * The Schelling variant of schelling_perceive/model.py: an agent stays
 * when the share of its perceived neighbours that have its type reaches
 * `homophily`, and moves when it perceives nobody or the share falls
 * short. Agents remember whether they stayed; the model counts the happy
 * agents of a step and every move ever made, and halts once a step leaves
 * every agent happy.
 *
 * As in the other model, the neighbour types each agent perceives and the
 * random index `move_to_empty` draws among the empty cells are inputs.
 */
module SchellingPerceive {
  import opened Wrappers
  import opened Segregation

  datatype Agent = Agent(kind: int, cell: Cell, happy: int)

  datatype Model = Model(
    width: nat,
    height: nat,
    density: real,
    minorityPc: real,
    homophily: real,
    perceptionMoore: bool,
    perceptionRadius: int,
    agents: seq<Agent>,
    happy: int,
    moves: int,
    running: bool
  )

  /** The neighbourhood name that selects Moore; every other name selects von Neumann. */
  const Moore := "Moore"

  /** Type 1 for the minority, 2 for the majority. */
  const Labels := (1, 2)

  function Settle(rs: seq<Resident>): (agents: seq<Agent>)
    ensures |agents| == |rs|
    ensures forall k :: 0 <= k < |rs| ==> agents[k] == Agent(rs[k].kind, rs[k].cell, 0)
  {
    seq(|rs|, k requires 0 <= k < |rs| => Agent(rs[k].kind, rs[k].cell, 0))
  }

  /**
   * `Schelling.__init__`: placement by the shared rule with types 1 and 2,
   * every agent starting unhappy, both counters at zero, running, and the
   * Moore neighbourhood chosen by name.
   */
  function Init(width: nat, height: nat, density: real, minorityPc: real, homophily: real,
                neighbourhood: string, radius: int, draw: nat -> real): Model
  {
    var placed := Populate(Cells(width, height), draw, 0, Mix(density, minorityPc, Labels.0, Labels.1));
    Model(width, height, density, minorityPc, homophily, neighbourhood == Moore, radius,
          Settle(placed.0), 0, 0, true)
  }

  /**
   * The constructor uses the Moore neighbourhood exactly when asked for it
   * by name (any other name means von Neumann), starts both counters at
   * zero and running, and puts at most one agent, of type 1 or 2, on each
   * cell of the grid, leaving it settled.
   */
  lemma InitFacts(width: nat, height: nat, density: real, minorityPc: real, homophily: real,
                  neighbourhood: string, radius: int, draw: nat -> real)
    ensures var m := Init(width, height, density, minorityPc, homophily, neighbourhood, radius, draw);
      && (m.perceptionMoore <==> neighbourhood == "Moore")
      && m.happy == 0 && m.moves == 0 && m.running
      && |m.agents| <= width * height
      && (forall j, k :: 0 <= j < k < |m.agents| ==> m.agents[j].cell != m.agents[k].cell)
      && (forall a :: a in m.agents ==>
            && 0 <= a.cell.x < width && 0 <= a.cell.y < height
            && (a.kind == 1 || a.kind == 2)
            && a.happy == 0)
    ensures var m := Init(width, height, density, minorityPc, homophily, neighbourhood, radius, draw);
      Settled(Taken(m.agents), width, height)
  {
    var mix := Mix(density, minorityPc, Labels.0, Labels.1);
    var rs := Populate(Cells(width, height), draw, 0, mix).0;
    PopulateOnePerCell(Cells(width, height), draw, 0, mix);
    var m := Init(width, height, density, minorityPc, homophily, neighbourhood, radius, draw);
    forall a | a in m.agents
      ensures 0 <= a.cell.x < width && 0 <= a.cell.y < height && (a.kind == 1 || a.kind == 2) && a.happy == 0
    {
      var k :| 0 <= k < |m.agents| && m.agents[k] == a;
      assert rs[k] in rs;
    }
    PopulateSettled(width, height, draw, 0, mix);
    SettleRoundTrip(rs);
  }

  /**
   * `SchellingAgent.step`'s test for moving: nobody perceived, or a share
   * of similar neighbours strictly below `homophily`.
   */
  function Moves(kind: int, seen: seq<int>, homophily: real): (r: bool)
    ensures |seen| == 0 ==> r
    ensures |seen| > 0 ==> (r <==> (Similar(kind, seen) as real) / (|seen| as real) < homophily)
    ensures homophily > 1.0 ==> r
  {
    assert |seen| > 0 ==> (Similar(kind, seen) as real) / (|seen| as real) <= 1.0 by {
      if |seen| > 0 {
        RatioAtMostOne(Similar(kind, seen), |seen|);
      }
    }
    |seen| == 0 || (Similar(kind, seen) as real) / (|seen| as real) < homophily
  }

  lemma RatioAtMostOne(similar: nat, all: nat)
    requires 0 < all && similar <= all
    ensures (similar as real) / (all as real) <= 1.0
  {
  }

  /** The agents without their flags: the type and the cell of each, in agent order. */
  function Residents(agents: seq<Agent>): (rs: seq<Resident>)
    ensures |rs| == |agents|
    ensures forall k :: 0 <= k < |agents| ==> rs[k] == Resident(agents[k].kind, agents[k].cell)
  {
    seq(|agents|, k requires 0 <= k < |agents| => Resident(agents[k].kind, agents[k].cell))
  }

  /** Dropping the flags undoes `Settle`: the constructor's agents are the placed residents. */
  lemma SettleRoundTrip(rs: seq<Resident>)
    ensures Residents(Settle(rs)) == rs
  {
  }

  /** The cells the agents stand on, in agent order. */
  function Taken(agents: seq<Agent>): seq<Cell> {
    Occupied(Residents(agents))
  }

  /**
   * `SchellingAgent.step` for agent `i`: a mover goes to the empty cell
   * `move_to_empty` picks, adds one to `moves` and marks itself unhappy; a
   * stayer adds one to the model's `happy` and marks itself happy. Nothing
   * else changes. None when a mover finds no empty cell, where mesa raises
   * before `moves` is counted.
   */
  function Activate(m: Model, i: nat, seen: seq<int>, pick: nat): (r: Option<Model>)
    requires i < |m.agents|
    ensures r.None? <==>
      Moves(m.agents[i].kind, seen, m.homophily) && EmptyCell(m.width, m.height, Taken(m.agents), pick).None?
    ensures r.Some? ==>
      && r.value == m.(agents := r.value.agents, happy := r.value.happy, moves := r.value.moves)
      && |r.value.agents| == |m.agents|
      && (forall j :: 0 <= j < |m.agents| && j != i ==> r.value.agents[j] == m.agents[j])
      && r.value.agents[i].kind == m.agents[i].kind
      && r.value.agents[i].happy == (if Moves(m.agents[i].kind, seen, m.homophily) then 0 else 1)
    ensures r.Some? && Moves(m.agents[i].kind, seen, m.homophily) ==>
      && InGrid(r.value.agents[i].cell, m.width, m.height)
      && r.value.agents[i].cell !in Taken(m.agents)
      && r.value.moves == m.moves + 1 && r.value.happy == m.happy
    ensures r.Some? && !Moves(m.agents[i].kind, seen, m.homophily) ==>
      r.value.agents[i].cell == m.agents[i].cell && r.value.moves == m.moves && r.value.happy == m.happy + 1
    ensures r.Some? && Settled(Taken(m.agents), m.width, m.height) ==>
      Settled(Taken(r.value.agents), m.width, m.height)
  {
    var a := m.agents[i];
    if Moves(a.kind, seen, m.homophily) then
      match EmptyCell(m.width, m.height, Taken(m.agents), pick)
      case None => None
      case Some(dest) =>
        RelocateKeepsSettled(m.agents, i, dest, m.width, m.height);
        Some(m.(agents := m.agents[i := a.(cell := dest, happy := 0)], moves := m.moves + 1))
    else
      Some(m.(agents := m.agents[i := a.(happy := 1)], happy := m.happy + 1))
  }

  /** Moving agent `i` to a cell of the grid nobody takes keeps the grid settled. */
  lemma RelocateKeepsSettled(agents: seq<Agent>, i: nat, c: Cell, width: nat, height: nat)
    requires i < |agents| && InGrid(c, width, height) && c !in Taken(agents)
    ensures Settled(Taken(agents), width, height) ==>
      Settled(Taken(agents[i := agents[i].(cell := c, happy := 0)]), width, height)
  {
    var rs := Residents(agents);
    assert Residents(agents[i := agents[i].(cell := c, happy := 0)]) == rs[i := rs[i].(cell := c)];
    Segregation.RelocateKeepsSettled(rs, i, c, width, height);
  }

  /**
   * How an activated agent ends: its type kept, its flag saying whether it
   * stayed, and its cell kept if it stayed and another cell of the grid if
   * it moved.
   */
  predicate Ends(m: Model, i: nat, seen: seq<int>, a: Agent)
    requires i < |m.agents|
  {
    && a.kind == m.agents[i].kind
    && if Moves(m.agents[i].kind, seen, m.homophily) then
         a.happy == 0 && a.cell != m.agents[i].cell && InGrid(a.cell, m.width, m.height)
       else
         a.happy == 1 && a.cell == m.agents[i].cell
  }

  /**
   * What holds after the first `k` activations of a step: settings kept,
   * each activation counted once as a move or as happy, a settled grid
   * still settled, the agents not yet activated untouched, and each
   * activated agent ending as `Ends` says.
   */
  ghost predicate Activated(m: Model, order: seq<nat>, seen: seq<seq<int>>, r: Model, k: nat)
    requires IsActivationOrder(order, |m.agents|)
    requires |seen| == |order| && k <= |order|
  {
    && r == m.(agents := r.agents, happy := r.happy, moves := r.moves)
    && |r.agents| == |m.agents|
    && (r.moves - m.moves) + r.happy == k
    && m.moves <= r.moves && 0 <= r.happy
    && (Settled(Taken(m.agents), m.width, m.height) ==> Settled(Taken(r.agents), m.width, m.height))
    && (forall j :: k <= j < |order| ==> r.agents[order[j]] == m.agents[order[j]])
    && (forall j :: 0 <= j < k ==> Ends(m, order[j], seen[j], r.agents[order[j]]))
  }

  /** One more activation that finds a cell extends what holds by one. */
  lemma ActivateNext(m: Model, order: seq<nat>, seen: seq<seq<int>>, picks: seq<nat>, r: Model, k: nat)
    requires IsActivationOrder(order, |m.agents|)
    requires |seen| == |order| && |picks| == |order| && k < |order|
    requires Activated(m, order, seen, r, k)
    requires Activate(r, order[k], seen[k], picks[k]).Some?
    ensures Activated(m, order, seen, Activate(r, order[k], seen[k], picks[k]).value, k + 1)
  {
    var i := order[k];
    var r' := Activate(r, i, seen[k], picks[k]).value;
    assert r.agents[i] == m.agents[i];
    assert Ends(m, i, seen[k], r'.agents[i]) by {
      if Moves(m.agents[i].kind, seen[k], m.homophily) {
        assert Taken(r.agents)[i] == m.agents[i].cell;
      }
    }
    OthersKept(m, order, seen, r, r', k);
  }

  /** The activation of `order[k]` touches no other agent the order lists. */
  lemma OthersKept(m: Model, order: seq<nat>, seen: seq<seq<int>>, r: Model, r': Model, k: nat)
    requires IsActivationOrder(order, |m.agents|)
    requires |seen| == |order| && k < |order|
    requires |r.agents| == |m.agents| == |r'.agents|
    requires forall j :: 0 <= j < |m.agents| && j != order[k] ==> r'.agents[j] == r.agents[j]
    requires forall j :: k <= j < |order| ==> r.agents[order[j]] == m.agents[order[j]]
    requires forall j :: 0 <= j < k ==> Ends(m, order[j], seen[j], r.agents[order[j]])
    requires Ends(m, order[k], seen[k], r'.agents[order[k]])
    ensures forall j :: k + 1 <= j < |order| ==> r'.agents[order[j]] == m.agents[order[j]]
    ensures forall j :: 0 <= j < k + 1 ==> Ends(m, order[j], seen[j], r'.agents[order[j]])
  {
    forall j | k + 1 <= j < |order| ensures r'.agents[order[j]] == m.agents[order[j]] {
      assert order[j] != order[k];
    }
    forall j | 0 <= j < k + 1 ensures Ends(m, order[j], seen[j], r'.agents[order[j]]) {
      if j < k {
        assert order[j] != order[k];
      }
    }
  }

  /**
   * `Schelling.step`: `happy` is reset and every agent activated once;
   * each activation either moves or counts as happy, so the moves added
   * plus the final happy count is the number of agents. `moves` is never
   * reset, so it only grows. Each agent's own flag records whether it
   * stayed, and a mover ends on another cell of the grid; a settled grid
   * stays settled. `running` is switched off when every agent was happy
   * and is never switched back on. The step fails only when a mover finds
   * the grid full, which cannot happen on a settled grid with fewer agents
   * than cells.
   */
  method Step(m: Model, order: seq<nat>, seen: seq<seq<int>>, picks: seq<nat>) returns (r: Option<Model>)
    requires IsActivationOrder(order, |m.agents|)
    requires |seen| == |order| && |picks| == |order|
    ensures r.None? ==> exists k :: 0 <= k < |order| && Moves(m.agents[order[k]].kind, seen[k], m.homophily)
    ensures Settled(Taken(m.agents), m.width, m.height) && |m.agents| < m.width * m.height ==> r.Some?
    ensures r.Some? ==> (r.value.moves - m.moves) + r.value.happy == |m.agents|
    ensures r.Some? ==> m.moves <= r.value.moves && 0 <= r.value.happy <= |m.agents|
    ensures r.Some? ==> r.value.running == (m.running && r.value.happy != |m.agents|)
    ensures r.Some? ==> |r.value.agents| == |m.agents|
    ensures r.Some? ==> forall k :: 0 <= k < |order| ==> Ends(m, order[k], seen[k], r.value.agents[order[k]])
    ensures r.Some? && Settled(Taken(m.agents), m.width, m.height) ==> Settled(Taken(r.value.agents), m.width, m.height)
    ensures r.Some? ==> r.value.homophily == m.homophily && r.value.perceptionMoore == m.perceptionMoore
    ensures r.Some? ==> r.value == m.(agents := r.value.agents, happy := r.value.happy, moves := r.value.moves, running := r.value.running)
  {
    var cur := m.(happy := 0);
    var k := 0;
    while k < |order|
      invariant 0 <= k <= |order|
      invariant Activated(m, order, seen, cur, k)
    {
      var next := Activate(cur, order[k], seen[k], picks[k]);
      if next.None? {
        if Settled(Taken(m.agents), m.width, m.height) && |m.agents| < m.width * m.height {
          RoomLeft(m.width, m.height, Taken(cur.agents), picks[k]);
        }
        return None;
      }
      ActivateNext(m, order, seen, picks, cur, k);
      cur := next.value;
      k := k + 1;
    }
    if cur.happy == |cur.agents| {
      cur := cur.(running := false);
    }
    r := Some(cur);
  }

}

=== FILE: segregation.dfy ===
/**
 * What the two Schelling models share: the grid's cells in the order mesa's
 * `coord_iter` visits them, the count of similar neighbours, and the
 * placement rule of the constructors, which draws once per cell and once
 * more per agent placed.
 */
module Segregation {
  import opened Wrappers

  datatype Cell = Cell(x: int, y: int)

  /** An agent's type and the cell it occupies. */
  datatype Resident = Resident(kind: int, cell: Cell)

  function Column(x: int, height: nat): (cs: seq<Cell>)
    ensures |cs| == height
    ensures forall k :: 0 <= k < height ==> cs[k] == Cell(x, k)
  {
    seq(height, y => Cell(x, y))
  }

  /** Column by column: `a` before `b` by x, then by y. */
  predicate Before(a: Cell, b: Cell) {
    a.x < b.x || (a.x == b.x && a.y < b.y)
  }

  predicate InGrid(c: Cell, width: nat, height: nat) {
    0 <= c.x < width && 0 <= c.y < height
  }

  /**
   * The cells of a width x height grid, column by column (in increasing
   * x, then increasing y, the order of `coord_iter` and of Python's sort
   * of coordinate tuples): every cell once, and nothing outside the grid.
   */
  function Cells(width: nat, height: nat): (cs: seq<Cell>)
    ensures |cs| == width * height
    ensures forall k :: 0 <= k < |cs| ==> 0 <= cs[k].x < width && 0 <= cs[k].y < height
    ensures forall x, y :: 0 <= x < width && 0 <= y < height ==> Cell(x, y) in cs
    ensures forall j, k :: 0 <= j < k < |cs| ==> Before(cs[j], cs[k])
    ensures Distinct(cs)
  {
    if width == 0 then []
    else
      var front := Cells(width - 1, height);
      var last := Column(width - 1, height);
      assert forall x, y :: 0 <= x < width - 1 && 0 <= y < height ==> Cell(x, y) in front + last;
      assert forall y :: 0 <= y < height ==> Cell(width - 1, y) == last[y];
      front + last
  }

  ghost predicate Distinct<T>(s: seq<T>) {
    forall j, k :: 0 <= j < k < |s| ==> s[j] != s[k]
  }

  /** The number of neighbours of the given type. */
  function Similar(kind: int, neighbours: seq<int>): (n: nat)
    ensures n <= |neighbours|
  {
    if neighbours == [] then 0
    else (if neighbours[0] == kind then 1 else 0) + Similar(kind, neighbours[1..])
  }

  /** The count agrees with the multiplicity of the type among the neighbours. */
  lemma {:induction false} SimilarIsMultiplicity(kind: int, neighbours: seq<int>)
    ensures Similar(kind, neighbours) == multiset(neighbours)[kind]
  {
    if neighbours != [] {
      SimilarIsMultiplicity(kind, neighbours[1..]);
      assert neighbours == [neighbours[0]] + neighbours[1..];
      assert multiset(neighbours) == multiset([neighbours[0]]) + multiset(neighbours[1..]);
    }
  }

  /** The placement parameters of a constructor and the two type labels it uses. */
  datatype Mix = Mix(density: real, minorityPc: real, minority: int, majority: int)

  /**
   * The constructors' loop over the cells. `draw(k)` is the k-th value of
   * the model's random generator and `at` the next one unused. A cell is
   * occupied when its draw is below the density; an occupant is of the
   * minority type when a second draw is below `minorityPc`. The result
   * lists the residents in cell order and the next unused draw.
   */
  function Populate(cells: seq<Cell>, draw: nat -> real, at: nat, mix: Mix): (r: (seq<Resident>, nat))
    ensures |r.0| <= |cells|
    ensures r.1 == at + |cells| + |r.0|
    ensures forall a :: a in r.0 ==> a.cell in cells && (a.kind == mix.minority || a.kind == mix.majority)
  {
    if cells == [] then ([], at)
    else if draw(at) < mix.density then
      var rest := Populate(cells[1..], draw, at + 2, mix);
      ([Resident(KindAt(draw, at + 1, mix), cells[0])] + rest.0, rest.1)
    else
      Populate(cells[1..], draw, at + 1, mix)
  }

  /** The draw index after the first cell, and that cell's resident if any. */
  function Next(at: nat, draw: nat -> real, mix: Mix): nat {
    if draw(at) < mix.density then at + 2 else at + 1
  }

  function Head(cell: Cell, at: nat, draw: nat -> real, mix: Mix): seq<Resident> {
    if draw(at) < mix.density then
      [Resident(KindAt(draw, at + 1, mix), cell)]
    else []
  }

  lemma PopulateCons(cells: seq<Cell>, draw: nat -> real, at: nat, mix: Mix)
    requires cells != []
    ensures var rest := Populate(cells[1..], draw, Next(at, draw, mix), mix);
      Populate(cells, draw, at, mix) == (Head(cells[0], at, draw, mix) + rest.0, rest.1)
  {
    if draw(at) >= mix.density {
      var rest := Populate(cells[1..], draw, Next(at, draw, mix), mix);
      assert [] + rest.0 == rest.0;
    }
  }

  /** Placing over a prefix and then over the rest is placing over the whole. */
  lemma {:induction false} PopulateSplit(cells: seq<Cell>, draw: nat -> real, at: nat, mix: Mix, k: nat)
    requires k <= |cells|
    ensures SplitAt(cells, draw, at, mix, k)
  {
    if k == 0 {
      assert cells[..k] == [] && cells[k..] == cells;
      var whole := Populate(cells, draw, at, mix);
      assert [] + whole.0 == whole.0;
    } else {
      PopulateSplit(cells[1..], draw, Next(at, draw, mix), mix, k - 1);
      SplitStep(cells, draw, at, mix, k);
    }
  }

  ghost predicate SplitAt(cells: seq<Cell>, draw: nat -> real, at: nat, mix: Mix, k: nat)
    requires k <= |cells|
  {
    var front := Populate(cells[..k], draw, at, mix);
    var back := Populate(cells[k..], draw, front.1, mix);
    Populate(cells, draw, at, mix) == (front.0 + back.0, back.1)
  }

  lemma SplitStep(cells: seq<Cell>, draw: nat -> real, at: nat, mix: Mix, k: nat)
    requires 0 < k <= |cells|
    requires SplitAt(cells[1..], draw, Next(at, draw, mix), mix, k - 1)
    ensures SplitAt(cells, draw, at, mix, k)
  {
    var rest := cells[1..];
    var next := Next(at, draw, mix);
    var head := Head(cells[0], at, draw, mix);
    var front' := Populate(rest[..k - 1], draw, next, mix);
    var back := Populate(rest[k - 1..], draw, front'.1, mix);
    assert Populate(rest, draw, next, mix) == (front'.0 + back.0, back.1);
    assert Populate(cells[..k], draw, at, mix) == (head + front'.0, front'.1) by {
      PopulateCons(cells[..k], draw, at, mix);
      assert cells[..k][1..] == rest[..k - 1];
    }
    assert Populate(cells, draw, at, mix) == (head + (front'.0 + back.0), back.1) by {
      PopulateCons(cells, draw, at, mix);
    }
    assert cells[k..] == rest[k - 1..];
    assert head + (front'.0 + back.0) == (head + front'.0) + back.0;
  }

  /** The type an occupant gets from the draw at `at`. */
  function KindAt(draw: nat -> real, at: nat, mix: Mix): int {
    if draw(at) < mix.minorityPc then mix.minority else mix.majority
  }

  /**
   * `cell` is occupied in `rs` exactly when the draw at `at` is below the
   * density, and only by an occupant whose type comes from the next draw.
   */
  ghost predicate CellHolds(rs: seq<Resident>, cell: Cell, draw: nat -> real, at: nat, mix: Mix) {
    && (exists a :: a in rs && a.cell == cell) == (draw(at) < mix.density)
    && (forall a :: a in rs && a.cell == cell ==> a == Resident(KindAt(draw, at + 1, mix), cell))
  }

  /** The first cell, if it does not recur, follows the rule with the first draw. */
  lemma HeadRule(cells: seq<Cell>, draw: nat -> real, at: nat, mix: Mix)
    requires cells != [] && cells[0] !in cells[1..]
    ensures CellHolds(Populate(cells, draw, at, mix).0, cells[0], draw, at, mix)
  {
    PopulateCons(cells, draw, at, mix);
    var rest := Populate(cells[1..], draw, Next(at, draw, mix), mix).0;
    forall a | a in rest ensures a.cell != cells[0] { }
    if draw(at) < mix.density {
      assert Resident(KindAt(draw, at + 1, mix), cells[0]) in Populate(cells, draw, at, mix).0;
    }
  }

  /** Residents in front of a sequence that avoid `cell` do not change its rule. */
  lemma HoldsBehind(front: seq<Resident>, back: seq<Resident>, cell: Cell, draw: nat -> real, at: nat, mix: Mix)
    requires forall a :: a in front ==> a.cell != cell
    requires CellHolds(back, cell, draw, at, mix)
    ensures CellHolds(front + back, cell, draw, at, mix)
  {
    assert forall a :: a in front + back <==> a in front || a in back;
  }

  /**
   * Over distinct cells, each cell holds at most one resident, and cell k
   * holds one exactly when the draw reached at that cell is below the
   * density; its type is the minority type exactly when the following draw
   * is below `minorityPc`.
   */
  lemma CellRule(cells: seq<Cell>, draw: nat -> real, at: nat, mix: Mix, k: nat)
    requires Distinct(cells) && k < |cells|
    ensures CellHolds(Populate(cells, draw, at, mix).0, cells[k], draw, Populate(cells[..k], draw, at, mix).1, mix)
  {
    var front := Populate(cells[..k], draw, at, mix);
    var back := Populate(cells[k..], draw, front.1, mix);
    assert Populate(cells, draw, at, mix).0 == front.0 + back.0 by {
      PopulateSplit(cells, draw, at, mix, k);
    }
    assert cells[k] !in cells[..k] && cells[k..][0] == cells[k] && cells[k..][0] !in cells[k..][1..] by {
      DistinctAt(cells, k);
    }
    HeadRule(cells[k..], draw, front.1, mix);
    HoldsBehind(front.0, back.0, cells[k], draw, front.1, mix);
  }

  /** In a sequence without repeats, element k occurs neither before nor after k. */
  lemma DistinctAt<T>(s: seq<T>, k: nat)
    requires Distinct(s) && k < |s|
    ensures s[k] !in s[..k] && s[k..][0] == s[k] && s[k] !in s[k..][1..]
  {
    assert s[k..][1..] == s[k + 1..];
  }

  /** No two residents share a cell. */
  ghost predicate OnePerCell(rs: seq<Resident>) {
    forall j, k :: 0 <= j < k < |rs| ==> rs[j].cell != rs[k].cell
  }

  /** Over distinct cells no two residents share a cell. */
  lemma {:induction false} PopulateOnePerCell(cells: seq<Cell>, draw: nat -> real, at: nat, mix: Mix)
    requires Distinct(cells)
    ensures OnePerCell(Populate(cells, draw, at, mix).0)
  {
    if cells != [] {
      var next := if draw(at) < mix.density then at + 2 else at + 1;
      PopulateOnePerCell(cells[1..], draw, next, mix);
      assert cells[0] !in cells[1..];
      var rest := Populate(cells[1..], draw, next, mix).0;
      var rs := Populate(cells, draw, at, mix).0;
      if draw(at) < mix.density {
        assert rs == [Resident(KindAt(draw, at + 1, mix), cells[0])] + rest;
        forall j, k | 0 <= j < k < |rs| ensures rs[j].cell != rs[k].cell {
          assert rs[k] == rest[k - 1];
          if j == 0 {
            assert rs[k] in rest;
          } else {
            assert rs[j] == rest[j - 1];
          }
        }
      } else {
        assert rs == rest;
      }
    }
  }


  /** The cells the residents stand on, in resident order. */
  function Occupied(rs: seq<Resident>): (cs: seq<Cell>)
    ensures |cs| == |rs|
    ensures forall k :: 0 <= k < |rs| ==> cs[k] == rs[k].cell
  {
    seq(|rs|, k requires 0 <= k < |rs| => rs[k].cell)
  }

  /** Positions inside the grid, no two the same: what a `SingleGrid` holds. */
  ghost predicate Settled(taken: seq<Cell>, width: nat, height: nat) {
    && Distinct(taken)
    && forall k :: 0 <= k < |taken| ==> InGrid(taken[k], width, height)
  }

  /** The cells of `cells` not taken, in the order of `cells`. */
  function Free(cells: seq<Cell>, taken: seq<Cell>): (es: seq<Cell>)
    ensures forall c :: c in es <==> c in cells && c !in taken
  {
    if cells == [] then []
    else (if cells[0] in taken then [] else [cells[0]]) + Free(cells[1..], taken)
  }

  /**
   * `SingleGrid.move_to_empty`'s choice of cell: `random.choice` over the
   * sorted empty cells, with the random index `pick` reduced to their
   * number. None when every cell of the grid is taken, where mesa raises
   * an error instead of moving.
   */
  function EmptyCell(width: nat, height: nat, taken: seq<Cell>, pick: nat): (r: Option<Cell>)
    ensures r.None? <==> forall x, y :: 0 <= x < width && 0 <= y < height ==> Cell(x, y) in taken
    ensures r.Some? ==> InGrid(r.value, width, height) && r.value !in taken
  {
    var es := Free(Cells(width, height), taken);
    if es == [] then None
    else
      var c := es[pick % |es|];
      assert c in es && c == Cell(c.x, c.y);
      Some(c)
  }

  /** The cells a sequence lists. */
  function Elems(s: seq<Cell>): (r: set<Cell>)
    ensures forall x :: x in r <==> x in s
  {
    if s == [] then {} else {s[0]} + Elems(s[1..])
  }

  /** A sequence without repeats has as many members as elements. */
  lemma {:induction false} DistinctElems(s: seq<Cell>)
    requires Distinct(s)
    ensures |Elems(s)| == |s|
  {
    if s != [] {
      DistinctElems(s[1..]);
      assert s[0] !in s[1..];
      assert Elems(s) == {s[0]} + Elems(s[1..]);
    }
  }

  /**
   * Pigeonhole: fewer distinct positions than cells leave some cell of the
   * grid empty, so `move_to_empty` finds one.
   */
  lemma RoomLeft(width: nat, height: nat, taken: seq<Cell>, pick: nat)
    requires Distinct(taken) && |taken| < width * height
    ensures EmptyCell(width, height, taken, pick).Some?
  {
    var grid := Cells(width, height);
    DistinctElems(grid);
    DistinctElems(taken);
    assert !(Elems(grid) <= Elems(taken)) by {
      if Elems(grid) <= Elems(taken) {
        SubsetSize(Elems(grid), Elems(taken));
      }
    }
    var c :| c in Elems(grid) && c !in Elems(taken);
    assert c == Cell(c.x, c.y) && 0 <= c.x < width && 0 <= c.y < height;
  }

  lemma SubsetSize(a: set<Cell>, b: set<Cell>)
    requires a <= b
    ensures |a| <= |b|
  {
    assert b == a + (b - a);
  }

  /** Moving one position to a cell of the grid nobody takes keeps the grid settled. */
  lemma MoveKeepsSettled(taken: seq<Cell>, i: nat, c: Cell, width: nat, height: nat)
    requires Settled(taken, width, height) && i < |taken|
    requires InGrid(c, width, height) && c !in taken
    ensures Settled(taken[i := c], width, height)
  {
    var t := taken[i := c];
    forall j, k | 0 <= j < k < |t| ensures t[j] != t[k] {
      if j == i {
        assert t[k] == taken[k];
      } else if k == i {
        assert t[j] == taken[j];
      }
    }
  }


  /** The same for a resident moved to a cell of the grid nobody takes. */
  lemma RelocateKeepsSettled(rs: seq<Resident>, i: nat, c: Cell, width: nat, height: nat)
    requires i < |rs| && InGrid(c, width, height) && c !in Occupied(rs)
    ensures Settled(Occupied(rs), width, height) ==> Settled(Occupied(rs[i := rs[i].(cell := c)]), width, height)
  {
    assert Occupied(rs[i := rs[i].(cell := c)]) == Occupied(rs)[i := c];
    if Settled(Occupied(rs), width, height) {
      MoveKeepsSettled(Occupied(rs), i, c, width, height);
    }
  }

  /** The constructors' placement leaves the grid settled. */
  lemma PopulateSettled(width: nat, height: nat, draw: nat -> real, at: nat, mix: Mix)
    ensures Settled(Occupied(Populate(Cells(width, height), draw, at, mix).0), width, height)
  {
    var rs := Populate(Cells(width, height), draw, at, mix).0;
    PopulateOnePerCell(Cells(width, height), draw, at, mix);
    forall k | 0 <= k < |rs| ensures InGrid(rs[k].cell, width, height) {
      assert rs[k] in rs;
    }
  }

  /** The scheduler's order: every agent, by index, exactly once. */
  ghost predicate IsActivationOrder(order: seq<nat>, n: nat) {
    && |order| == n
    && (forall k :: 0 <= k < |order| ==> order[k] < n)
    && (forall j, k :: 0 <= j < k < |order| ==> order[j] != order[k])
  }

}

=== FILE: traces.dfy ===
/**
 * The trace agent of boid.py: a marker left at a boid's position that ages
 * by one every step and removes itself once its age drops below zero.
 */
module Traces {
  import opened Geometry

  datatype Trace = Trace(id: int, pos: Vec, age: int)

  /** What one `Trace.step` leaves: the aged trace, kept or removed. */
  datatype Aged = Kept(trace: Trace) | Removed(trace: Trace)

  /**
   * `Trace.step`: the age drops by one and the trace is removed from the
   * schedule and the space exactly when the new age is negative.
   */
  function Age(t: Trace): (r: Aged)
    ensures r.trace == t.(age := t.age - 1)
    ensures r.Removed? <==> t.age - 1 < 0
  {
    var aged := t.(age := t.age - 1);
    if aged.age < 0 then Removed(aged) else Kept(aged)
  }

  /** How many steps a trace takes, the removing one included. */
  function Activations(t: Trace): nat
    decreases if t.age < 0 then 0 else t.age
  {
    match Age(t)
    case Removed(_) => 1
    case Kept(next) => 1 + Activations(next)
  }

  /**
   * A trace created with initial age A >= 0 is removed on its (A+1)-th
   * step; one created with a negative age on its first.
   */
  lemma {:induction false} ActivationsOfAge(t: Trace)
    ensures Activations(t) == if t.age < 0 then 1 else t.age + 1
    decreases if t.age < 0 then 0 else t.age
  {
    match Age(t)
    case Removed(_) =>
    case Kept(next) =>
      ActivationsOfAge(next);
  }

  /** Every step before the last keeps the trace, with its age counted down. */
  lemma {:induction false} KeptUntilLastStep(t: Trace, k: nat)
    requires k <= t.age
    ensures AgedTimes(t, k).age == t.age - k
    ensures Age(AgedTimes(t, k)).Kept? <==> k < t.age
  {
    if k > 0 {
      KeptUntilLastStep(t, k - 1);
    }
  }

  /** The trace after `k` steps, ignoring removal. */
  function AgedTimes(t: Trace, k: nat): Trace {
    if k == 0 then t else Age(AgedTimes(t, k - 1)).trace
  }

}

=== FILE: wrappers.dfy ===
/** Optional values, used where the source starts from `None`. */
module Wrappers {

  datatype Option<+T> = None | Some(value: T)

}
